=== FILE: README.md ===
# zoo cell synchronisation, modelled in Dafny

zoo keeps a *cell* (a MongoDB collection of JSON documents) in sync with a
*snapshot* (a line-per-document JSON file). Four commands move documents
between the two:

- `init` loads every line of a snapshot under a freshly generated `_id`.
- `add` loads the lines that are not duplicates. Duplicates are judged by
  `_id`, or by a key path given with `--primkey`.
- `commit` writes every stored document out with a fresh content digest
  in `md5`.
- `pull` reconciles a snapshot back into the cell. Each line is inserted,
  kept unchanged or replaced wholesale, depending on whether its `md5` still
  matches a fresh digest of the stored document.

The digest is `hash_dict`. It sorts every dict and list recursively, flattens
the result to a stream of scalar tokens, and feeds the `str` of each token to
MD5.

The model is functional:

- JSON values are a datatype. Objects keep their members in insertion
  order, as Python dicts do (`json.dfy`).
- The cell is a map from `_id` value to document (`store.dfy`).
- Each command is a fold over the snapshot's lines. It returns the new cell
  and the counts the command prints (`init.dfy`, `add.dfy`, `commit.dfy`,
  `pull.dfy`).
- MD5 is an uninterpreted parameter `md5: string -> string`.
- `ordered` and `flat` are modelled from their description in
  `zoo/hash.py` (`canonical.dfy`, `hash.dfy`). `zoo/utils.py` is not part
  of this model.
- `findings.dfy` exhibits the one place where `pull`, as written, departs
  from its `# new entry` comment (zoo/cli/cell.py:256): pulling the same
  line twice can abort.

Where the code departs from what a reader of its docstrings and comments
would expect, the model follows the code:

- `init` does not catch `DuplicateKeyError` (zoo/cli/cell.py:54-59). A clash of a generated `_id`
  with a stored one aborts the command, and the lines already inserted stay
  in the cell (`InitOutcome.failed`).
- In the key-path branch of `add`, a line whose key value is new but whose
  own `_id` is already stored raises an uncaught `DuplicateKeyError`, which
  aborts the command (`AddLineByKey` returns `None`; zoo/cli/cell.py:119-125).
  In the `_id` branch the same clash is caught and counted as a duplicate
  (zoo/cli/cell.py:107-113).
- `hash_dict` hashes every member it is given, although its docstring
  (zoo/hash.py:6) speaks of a dict without `_id`. Dropping `_id` and `md5` is
  done by its callers: `pop`/`del` in `commit` (zoo/cli/cell.py:189-195), a
  projection in `pull` (zoo/cli/cell.py:254).
- A second `pull` reports every line unchanged when the lines are as
  `commit` writes them (each `md5` is the digest of the rest of the line) and
  carry distinct `_id`s. For a stored document with no field besides `_id`
  and `md5`, it holds only with the correction listed under Findings
  (zoo/cli/cell.py:256).

## Model

| member | source | states |
|---|---|---|
| Json.Set | zoo/cli/cell.py:196-197 | `d[k] = v`: afterwards `k` holds `v` and every other key reads as before |
| Json.Remove | zoo/cli/cell.py:189-195 | `pop`/`del`: the key is gone, every other key reads as before, and no member is invented |
| Json.Strip | zoo/cli/cell.py:254 | the projection `{'_id': 0, 'md5': 0}` drops both reserved fields and keeps every other field |
| Json.StripSetReserved | zoo/cli/cell.py:189-196 | whatever is written into `_id` or `md5` is invisible once the reserved fields are stripped |
| Json.StripOnlyReserved | zoo/cli/cell.py:254 | a document holding nothing but `_id`/`md5` projects to the empty document `{}` |
| Canonical.Sort | zoo/hash.py:15-18 | the sort inside `ordered` returns a sorted rearrangement of its input |
| Canonical.SortedUnique | zoo/hash.py:15-18 | under the total order, a multiset has exactly one sorted arrangement |
| Canonical.SortPermutation | zoo/hash.py:15-18 | the sorted form depends only on the multiset of its input, not on the input order |
| Canonical.ApplyMultiset | zoo/hash.py:8-18 | rearranging dict members or list elements by a permutation keeps their multiset |
| Hash.TextAppend | zoo/hash.py:22-23 | feeding tokens one after another is feeding the concatenation of their texts |
| Hash.OrderedPermute | zoo/hash.py:8-18 | the ordered form is the same for every reordering of members and elements, at any depth |
| Hash.HashDictPermute | zoo/hash.py:8-18 | two documents that differ only in member or element order, at any depth, hash equal |
| Hash.HashDictReorderedExample | zoo/hash.py:8-18 | `{a: u, b: {x: p, y: q}}` and `{b: {y: q, x: p}, a: u}` are different documents that hash equal |
| Hash.HashDictByText | zoo/hash.py:20-24 | the digest depends only on the text of the token stream; for a collision-free MD5, equal digests mean equal text |
| Hash.HashDictBoundaryCollision | zoo/hash.py:22-23 | tokens are joined with no separator, so `{k: s+t}` and `{k+s: t}` hash equal under every MD5 |
| Hash.HashDictTypeCollision | zoo/hash.py:23 | `str` erases the token's type, so the number `n` and the string of its digits hash equal |
| Hash.HashDictSeesId | zoo/hash.py:5-24 | `hash_dict` does not skip `_id`: with the identity as MD5, two documents differing only in `_id` hash differently |
| InitCommand.Init | zoo/cli/cell.py:53-59 | without an id clash every line is inserted, so the count equals the line count; a clash stops the run before the last line; stored documents are never changed |
| InitCommand.InitStores | zoo/cli/cell.py:55-58 | each inserted line is stored under its generated id, as the line with `_id` overwritten by that id, and nothing else is added |
| AddCommand.Admit | zoo/cli/cell.py:109 | a line is stored under its own `_id`, or under the driver's generated one written into it, with every other field intact |
| AddCommand.AddLineById | zoo/cli/cell.py:107-113 | a line is inserted iff its `_id` is new; a duplicate leaves the cell unchanged |
| AddCommand.AddById | zoo/cli/cell.py:104-113 | inserted plus duplicates equals the line count, the cell grows by exactly the inserted count, and stored documents are never changed |
| AddCommand.AddLineByKey | zoo/cli/cell.py:119-125 | a line is a duplicate iff a stored document has its key value; otherwise it is inserted, unless its `_id` is taken, which aborts |
| AddCommand.AddLinesByKey | zoo/cli/cell.py:119-125 | the counts cover every line unless the run aborts, the cell grows by the inserted count, and stored documents are never changed |
| AddCommand.AddByKey | zoo/cli/cell.py:114-118 | the unique index on the key path is created exactly when no index of that name exists and no two stored documents share a key value; when two do, creating it fails, the run aborts before reading a line and the cell and index names are unchanged; otherwise the index is present afterwards |
| AddCommand.AddByKeyCreatesSatisfiedIndex | zoo/cli/cell.py:114-125 | when the run creates the unique index, the cell it leaves satisfies that index |
| AddCommand.Add | zoo/cli/cell.py:104-125 | `--primkey _id` never aborts and adds no index; another key path ends with its index present unless the run aborts with the index names unchanged; the counts partition the lines whenever the run completes |
| AddCommand.AddByIdKeys | zoo/cli/cell.py:106-113 | after adding by `_id`, the cell holds the `_id` of every line and no other new `_id` |
| AddCommand.AddByIdDocuments | zoo/cli/cell.py:107-110 | each document the `_id` branch adds is some line, with the driver's `_id` written in when it had none |
| AddCommand.AddLinesByKeyStores | zoo/cli/cell.py:119-125 | each document the key-path branch adds, aborted or not, is some line, and only lines' `_id`s are added |
| AddCommand.AddLinesByKeyCovers | zoo/cli/cell.py:119-125 | once the key-path branch completes, every line's key value is held by some stored document: a line is either stored or a duplicate of one |
| AddCommand.AddLinesByKeyKeepsUnique | zoo/cli/cell.py:115-125 | adding by key path never stores two documents with the same key value |
| CommitCommand.CommitRecord | zoo/cli/cell.py:189-197 | the output carries `md5` = digest of the document without `_id` and `md5`; every other field, `_id` included, is kept |
| CommitCommand.Commit | zoo/cli/cell.py:184-198 | one line per stored document in cursor order, each sealed, carrying its own `_id` and the stored content; the cell is only read |
| CommitCommand.CommitIgnoresStaleDigest | zoo/cli/cell.py:192-195 | a stale `md5` left in the stored document does not change what commit writes |
| CommitCommand.CommitDigestIgnoresId | zoo/cli/cell.py:189-191 | the digest commit writes does not depend on the document's `_id` |
| PullCommand.Reconcile | zoo/cli/cell.py:243-270 | every processed line increments exactly one counter: the counts sum to the line count, or to fewer when a line aborts the loop |
| PullCommand.Lookup | zoo/cli/cell.py:254 | `find_one` with the projection finds a document iff its `_id` is stored; the result has no `_id` or `md5` and every other field reads as in the stored document |
| PullCommand.PullLine | zoo/cli/cell.py:249-270 | a line without `_id` or `md5` raises; otherwise it is inserted verbatim iff its `_id` is absent, kept iff its `md5` equals the fresh digest, and else replaced wholesale |
| PullCommand.PullLineAsWritten | zoo/cli/cell.py:254-259 | the source's test `not d_old` differs from the corrected decision only by raising `DuplicateKeyError` when the stored document projects to `{}` |
| PullCommand.ReconcileSingle | zoo/cli/cell.py:248-270 | a pull of one line reports that line's verdict or stops on its error |
| PullCommand.ReconcileNoop | zoo/cli/cell.py:263-266 | when every line leaves the cell alone, the loop changes nothing and counts every line unchanged |
| PullCommand.PullAbortsIffIncomplete | zoo/cli/cell.py:251-252 | pull stops early exactly when some line lacks `_id` or `md5` |
| PullCommand.PullLeavesOthers | zoo/cli/cell.py:254-268 | a stored document whose `_id` no line carries is left exactly as it was |
| PullCommand.PullKeepsKeyed | zoo/cli/cell.py:256-268 | pull keeps every stored document under its own `_id` |
| PullCommand.PullSettledIsNoop | zoo/cli/cell.py:261-266 | when every line's `md5` matches its stored document, pull changes nothing and reports every line unchanged |
| PullCommand.PullSettles | zoo/cli/cell.py:254-270 | after pulling lines as commit writes them, with distinct ids, every line matches its stored document |
| PullCommand.PullIdempotent | zoo/cli/cell.py:254-270 | a second pull of the same committed snapshot reports 0 inserted, 0 replaced, all unchanged, and leaves the cell as the first pull left it |
| PullCommand.CommitPullRoundTrip | zoo/cli/cell.py:185-198 | pulling a cell's own commit back changes nothing and reports every document unchanged |
| PullCommand.SettledElsewhere | zoo/cli/cell.py:268 | replacing one document does not unsettle a line for another `_id` |
| PullCommand.PullOneStale | zoo/cli/cell.py:261-270 | when exactly one line's `md5` disagrees with its stored document, pull replaces just that document by the line and reports the rest unchanged |
| PullCommand.CommitMutatePull | zoo/cli/cell.py:261-270 | commit, change one stored document's content, pull: one replaced, all others unchanged, and the changed document is back to its committed content |
| PullCommand.SnapshotSettledElsewhere | zoo/cli/cell.py:254-266 | after one stored document is changed, every other line of the snapshot still matches its document |
| Findings.EmptyLineCell | zoo/cli/cell.py:55-58 | `init` of the line `{}` stores one document holding only its `_id` |
| Findings.AsWrittenAbortsOnBareDocument | zoo/cli/cell.py:254-257 | the source's pull aborts with `DuplicateKeyError` on a line whose stored document has no field besides `_id`/`md5` |
| Findings.PullAsWrittenRoundTripFails | zoo/cli/cell.py:254-259 | for the cell `init` makes from `{}`, the source's pull of the cell's own commit aborts, while the corrected pull reports it unchanged |
| Findings.AsWrittenFirstPull | zoo/cli/cell.py:256-259 | the source's pull inserts a complete line whose `_id` is new |
| Findings.SealedLineSettles | zoo/cli/cell.py:261-266 | the corrected pull reports a stored, sealed line unchanged |
| Findings.PullAsWrittenNotIdempotent | zoo/cli/cell.py:254-259 | pulling a line carrying only `_id` and `md5` twice: the source's second pull aborts, the corrected one reports it unchanged |

## Left out

- MongoDB I/O, file reading and writing, `json.loads`/`json.dumps`, the click
  command layer and the progress bar. The cell is a map and the snapshot a
  sequence of parsed documents.
- The line order `commit` writes is the cursor's order, given as a parameter
  `cursor`; the store's own order is not modelled.
- Serialisation by `json.dumps(sort_keys=True)` in `commit`. The model hands
  `pull` the documents `commit` built, not their text.
- The sourmash signature accumulation and the `.zoo` file of `commit`
  (zoo/cli/cell.py:178-216), an external library. With it also goes the
  `KeyError` that `d['sequence']` raises for a document without a `sequence`
  field.
- `diff`, `drop`, `destroy`, `status`, `validate`: library or single store
  calls.
- Floating-point numbers. JSON numbers are integers, and `str` of an integer
  is its decimal digits.
- `ordered`, `flat` and `deep_get` (zoo/utils.py is not part of this model).
  `ordered` and `flat` are modelled from their description in
  zoo/hash.py:15-18, with a total order on ordered forms: null < boolean <
  number < string < container, and the natural order within a kind. Python's
  own comparison differs, and `sorted` inside `ordered` would follow it:
  `bool` is a subclass of `int`, so booleans and numbers compare numerically
  (`True == 1`) rather than ranking apart; `None` does not compare even with
  `None`, and strings, numbers, lists and tuples do not compare across kinds,
  so `sorted` raises `TypeError` on a list holding two nulls or holding, say, a
  string and a number. Neither the ties nor the `TypeError` are modelled.
- Canonical.Sort: booleans rank apart from numbers, whereas Python sorts
  `[0, True]` as `[0, True]` and the model sorts it as `[true, 0]`, so the
  two digest texts differ (`0True` against `True0`).
- Hash.HashDictPermute: order independence is a property of the model's
  total order. It does not carry over to the source for a list that mixes
  booleans with numbers: `[1, true]` and `[true, 1]` tie under Python's
  comparison, `sorted` keeps their input order, and the digests differ.
- `deep_get` together with the store's equality query on a key path is one
  parameter `key: Record -> Value`, and a line matches a stored document when
  both give the same value. What a missing path resolves to is left to that
  parameter; the store indexes and queries a missing path as null.
- AddCommand.AddLineByKey: does not model the store's array matching. The
  query `{P: v}` (zoo/cli/cell.py:121) also matches a stored document whose
  value at `P` is an array holding `v`, and a dotted path may run through an
  array of subdocuments; with `{g: [1, 2]}` stored, the line `{g: 1}` is a
  duplicate in the source and is inserted by the model. `UniqueOn` likewise
  compares whole values, where a unique index over an array field compares
  its elements.
- The unique index that `add` creates on a key path is tracked by name, and
  its creation over a cell it does not fit is modelled (`AddByKey`). Its
  enforcement on later writes is not, and the lines below name what each
  write then does differently.
- AddCommand.AddLineByKey: does not model the store rejecting an insert
  (zoo/cli/cell.py:124) that breaks a unique index on another key path, such
  as the one an earlier `add --primkey q` created. The `find_one` check at
  zoo/cli/cell.py:121 looks only at the current key path, so the store raises
  `DuplicateKeyError`, which this branch does not catch, and `add` aborts;
  the model inserts the line.
- AddCommand.AddLineById: does not model the store rejecting a line whose
  `_id` is new but whose value at an indexed key path is taken; the source
  catches that `DuplicateKeyError` (zoo/cli/cell.py:108-112) and counts a
  duplicate, the model inserts the line.
- InitCommand.Init: does not model the store rejecting a line whose value at
  an indexed key path is taken; the source's `insert_one`
  (zoo/cli/cell.py:58) raises `DuplicateKeyError` and aborts, the model
  inserts the line.
- PullCommand.PullLine: does not model the store rejecting an insert or a
  replacement (zoo/cli/cell.py:257, 268) whose value at an indexed key path is
  held by another document; the source aborts with `DuplicateKeyError`, the
  model writes the line.
- `uuid4()` in `init` and the driver's ObjectId for a line without `_id` in
  `add` are parameters, one per line, and an ObjectId is modelled as a JSON
  value.
- CommitCommand.Commit: does not model the abort on a document whose `_id`
  the driver generated. `json.dumps(d, sort_keys=True)` (zoo/cli/cell.py:198)
  raises `TypeError` on an ObjectId, so the source's `commit` stops at the
  first such document; the model writes a sealed line for it, and
  PullCommand.CommitPullRoundTrip covers such cells too.
- Integers are unbounded. The driver encodes only signed 64-bit integers: a
  document holding a larger one makes `insert_one` or `find_one_and_replace`
  (zoo/cli/cell.py:58, 109, 124, 257, 268) raise `OverflowError`, which no
  command catches, so `init`, `add` and `pull` abort there. InitCommand.Init,
  AddCommand.AddLineById, AddCommand.AddLineByKey and PullCommand.PullLine
  store such a line instead.
- An array `_id` is refused by the store at insert. InitCommand.Init never
  produces one, but AddCommand.AddLineById, AddCommand.AddLineByKey and
  PullCommand.PullLine store a line whose `_id` is an array, where the source
  aborts with the store's write error.
- MD5's internals. It is a function parameter, so determinism (equal inputs
  give equal digests) holds by construction and needs no lemma.
- Cell keys are JSON values rather than strings, since a line passed to
  `add` or `pull` may carry a non-string `_id`.
- PullCommand.PullIdempotent: proved for snapshots in which each `md5` is
  the digest `commit` writes and the `_id`s are distinct. For other
  snapshots, a second pull can replace a document again.
- Hash.HashDictSeesId: shown for the identity as MD5 rather than for every
  collision-free MD5.

## Findings

| source | as written | input that shows it | evidently intended | confidence | as-written member | corrected member |
|---|---|---|---|---|---|---|
| zoo/cli/cell.py:254-259 | `if not d_old` treats a stored document whose projection without `_id` and `md5` is `{}` as missing, so `insert_one` raises `DuplicateKeyError` and `pull` aborts | a line holding only `_id` and `md5`, pulled twice into an empty cell: the first pull inserts it, the second aborts | `if d_old is None` | high, not executed | Findings.PullAsWrittenNotIdempotent | PullCommand.PullIdempotent |

The same document also breaks the round trip through `commit`
(Findings.PullAsWrittenRoundTripFails, with the cell `init` makes from the
line `{}`). In the source, though, `commit` itself raises `KeyError` at
`d['sequence']` (zoo/cli/cell.py:202) on such a document, after writing its
line, so `pull` is never reached that way. That signature step is not
modelled.

=== FILE: add.dfy ===
/**
 * `zoo add`: insert the lines of a snapshot that are not yet in the cell,
 * judging duplicates either by `_id` or by a caller-given key path.
 */
module AddCommand {
  import opened Wrappers
  import opened Json
  import opened Store

  datatype AddCounts = AddCounts(inserted: nat, duplicates: nat)

  /**
   * The `_id` a line is stored under and the document stored: the line's own
   * `_id`, or else the one the driver generates and writes into the line.
   */
  function Admit(d: Record, generated: Value): (r: (Value, Record))
    ensures Get(r.1, IdKey) == Some(r.0)
    ensures forall k :: k != IdKey ==> Get(r.1, k) == Get(d, k)
    ensures HasKey(d, IdKey) ==> r == (Get(d, IdKey).value, d)
  {
    match Get(d, IdKey)
    case Some(id) => (id, d)
    case None => (generated, Set(d, IdKey, generated))
  }

  // ---------------------------------------------------------------------
  // Duplicates judged by `_id`: the store's `DuplicateKeyError` is caught.

  /** One line: inserted unless its `_id` is already taken, in which case the cell is untouched. */
  function AddLineById(c: Cell, d: Record, generated: Value): (r: (Cell, bool))
    ensures var (id, doc) := Admit(d, generated);
      && (r.1 <==> id !in c)
      && r.0 == (if r.1 then c[id := doc] else c)
  {
    var (id, doc) := Admit(d, generated);
    if id in c then (c, false) else (c[id := doc], true)
  }

  /** `generated[i]` stands for the ObjectId the driver would give line `i` if it has no `_id`. */
  function AddById(c: Cell, lines: seq<Record>, generated: seq<Value>): (r: (Cell, AddCounts))
    requires |generated| == |lines|
    ensures r.1.inserted + r.1.duplicates == |lines|
    ensures |r.0| == |c| + r.1.inserted
    ensures forall id :: id in c ==> id in r.0 && r.0[id] == c[id]
    ensures Keyed(c) ==> Keyed(r.0)
    decreases |lines|
  {
    if |lines| == 0 then (c, AddCounts(0, 0))
    else
      var (next, isNew) := AddLineById(c, lines[0], generated[0]);
      var (last, counts) := AddById(next, lines[1..], generated[1..]);
      if isNew then (last, AddCounts(counts.inserted + 1, counts.duplicates))
      else (last, AddCounts(counts.inserted, counts.duplicates + 1))
  }

  // ---------------------------------------------------------------------
  // Duplicates judged by a key path.

  /**
   * Some stored document has value `v` at the key path, where `key` is how
   * `deep_get` and the store's equality query resolve the path on a document.
   */
  predicate Taken(c: Cell, key: Record -> Value, v: Value) {
    exists id :: id in c && key(c[id]) == v
  }

  /** No two stored documents share a value at the key path: what the unique index demands. */
  predicate UniqueOn(c: Cell, key: Record -> Value) {
    forall a, b :: a in c && b in c && a != b ==> key(c[a]) != key(c[b])
  }

  /**
   * One line: a duplicate when its key value is taken, otherwise inserted.
   * The insert is not guarded against an `_id` clash: the store raises
   * `DuplicateKeyError`, which this branch does not catch.
   */
  function AddLineByKey(c: Cell, d: Record, key: Record -> Value, generated: Value): (r: Option<(Cell, bool)>)
    ensures var (id, doc) := Admit(d, generated);
      && (r.None? <==> !Taken(c, key, key(d)) && id in c)
      && (r.Some? ==> (r.value.1 <==> !Taken(c, key, key(d))))
      && (r.Some? ==> r.value.0 == (if r.value.1 then c[id := doc] else c))
  {
    if Taken(c, key, key(d)) then Some((c, false))
    else
      var (id, doc) := Admit(d, generated);
      if id in c then None else Some((c[id := doc], true))
  }

  /**
   * The cell, the index names it carries, whether the index on the key path
   * was created by this run, the counts, and whether the run was aborted.
   */
  datatype KeyedOutcome = KeyedOutcome(cell: Cell, indexes: set<string>, created: bool, counts: AddCounts, failed: bool)

  /** The per-line loop of the key-path branch. */
  function AddLinesByKey(c: Cell, lines: seq<Record>, key: Record -> Value, generated: seq<Value>): (r: (Cell, AddCounts, bool))
    requires |generated| == |lines|
    ensures !r.2 ==> r.1.inserted + r.1.duplicates == |lines|
    ensures r.2 ==> r.1.inserted + r.1.duplicates < |lines|
    ensures |r.0| == |c| + r.1.inserted
    ensures forall id :: id in c ==> id in r.0 && r.0[id] == c[id]
    ensures Keyed(c) ==> Keyed(r.0)
    decreases |lines|
  {
    if |lines| == 0 then (c, AddCounts(0, 0), false)
    else
      match AddLineByKey(c, lines[0], key, generated[0])
      case None => (c, AddCounts(0, 0), true)
      case Some((next, isNew)) =>
        var (last, counts, failed) := AddLinesByKey(next, lines[1..], key, generated[1..]);
        if isNew then (last, AddCounts(counts.inserted + 1, counts.duplicates), failed)
        else (last, AddCounts(counts.inserted, counts.duplicates + 1), failed)
  }

  /**
   * The key-path branch: create the unique index unless one of that name
   * exists, then load. Creating a unique index over a cell that already holds
   * two documents with the same value at the path fails with a duplicate-key
   * error the command does not catch, so no line is read.
   */
  function AddByKey(c: Cell, indexes: set<string>, primkey: string, key: Record -> Value,
                    lines: seq<Record>, generated: seq<Value>): (r: KeyedOutcome)
    requires |generated| == |lines|
    ensures r.created <==> primkey !in indexes && UniqueOn(c, key)
    ensures primkey !in indexes && !UniqueOn(c, key) ==>
      r.failed && r.cell == c && r.indexes == indexes && r.counts == AddCounts(0, 0)
    ensures primkey in indexes || UniqueOn(c, key) ==> r.indexes == indexes + {primkey}
  {
    if primkey !in indexes && !UniqueOn(c, key) then KeyedOutcome(c, indexes, false, AddCounts(0, 0), true)
    else
      var (next, counts, failed) := AddLinesByKey(c, lines, key, generated);
      KeyedOutcome(next, indexes + {primkey}, primkey !in indexes, counts, failed)
  }

  /** `zoo add --primkey P`: the `_id` branch when `P` is `_id`, the key-path branch otherwise. */
  function Add(c: Cell, indexes: set<string>, primkey: string, key: Record -> Value,
               lines: seq<Record>, generated: seq<Value>): (r: KeyedOutcome)
    requires |generated| == |lines|
    ensures primkey == IdKey ==> !r.failed && r.indexes == indexes
    ensures primkey != IdKey ==> r.indexes == indexes + {primkey} || (r.failed && r.indexes == indexes)
    ensures !r.failed ==> r.counts.inserted + r.counts.duplicates == |lines|
  {
    if primkey == IdKey then
      var (next, counts) := AddById(c, lines, generated);
      KeyedOutcome(next, indexes, false, counts, false)
    else AddByKey(c, indexes, primkey, key, lines, generated)
  }

  /**
   * When `add` creates the unique index on the key path, the cell it leaves
   * behind satisfies that index, provided the key path does not run through
   * `_id`.
   */
  lemma AddByKeyCreatesSatisfiedIndex(c: Cell, indexes: set<string>, primkey: string, key: Record -> Value,
                                      lines: seq<Record>, generated: seq<Value>)
    requires |generated| == |lines|
    requires forall d, v :: key(Set(d, IdKey, v)) == key(d)
    ensures AddByKey(c, indexes, primkey, key, lines, generated).created ==>
      UniqueOn(AddByKey(c, indexes, primkey, key, lines, generated).cell, key)
  {
    if primkey !in indexes && UniqueOn(c, key) {
      AddLinesByKeyKeepsUnique(c, lines, key, generated);
    }
  }

  /**
   * Adding by key path never stores two documents with the same key value,
   * provided the key path does not run through `_id`, which the driver may
   * write into a line before storing it.
   */
  lemma {:induction false} AddLinesByKeyKeepsUnique(c: Cell, lines: seq<Record>, key: Record -> Value, generated: seq<Value>)
    requires |generated| == |lines|
    requires forall d, v :: key(Set(d, IdKey, v)) == key(d)
    requires UniqueOn(c, key)
    ensures UniqueOn(AddLinesByKey(c, lines, key, generated).0, key)
    decreases |lines|
  {
    if |lines| > 0 {
      match AddLineByKey(c, lines[0], key, generated[0])
      case None =>
      case Some((next, isNew)) =>
        if isNew {
          var (id, doc) := Admit(lines[0], generated[0]);
          assert key(doc) == key(lines[0]);
          assert next == c[id := doc];
          forall a, b | a in next && b in next && a != b
            ensures key(next[a]) != key(next[b])
          {
            if a == id {
              assert b in c;
            } else if b == id {
              assert a in c;
            }
          }
        }
        AddLinesByKeyKeepsUnique(next, lines[1..], key, generated[1..]);
    }
  }

  // ---------------------------------------------------------------------
  // Which documents a run stores.

  /** The `_id` each line is stored under, if it is stored. */
  function AdmittedIds(lines: seq<Record>, generated: seq<Value>): set<Value>
    requires |generated| == |lines|
    decreases |lines|
  {
    if |lines| == 0 then {} else {Admit(lines[0], generated[0]).0} + AdmittedIds(lines[1..], generated[1..])
  }

  /** The `(_id, document)` pair each line is stored as, if it is stored. */
  function Admitted(lines: seq<Record>, generated: seq<Value>): set<(Value, Record)>
    requires |generated| == |lines|
    decreases |lines|
  {
    if |lines| == 0 then {} else {Admit(lines[0], generated[0])} + Admitted(lines[1..], generated[1..])
  }

  /** Adding by `_id`: afterwards the cell holds the `_id` of every line, and no other new one. */
  lemma {:induction false} AddByIdKeys(c: Cell, lines: seq<Record>, generated: seq<Value>)
    requires |generated| == |lines|
    ensures AddById(c, lines, generated).0.Keys == c.Keys + AdmittedIds(lines, generated)
    decreases |lines|
  {
    if |lines| > 0 {
      var next := AddLineById(c, lines[0], generated[0]).0;
      LineByIdKeys(c, lines[0], generated[0]);
      AddByIdKeys(next, lines[1..], generated[1..]);
      AddByIdUnfold(c, lines, generated);
    }
  }

  /** One line adds its `_id` to the cell's keys, whether or not it is a duplicate. */
  lemma LineByIdKeys(c: Cell, d: Record, generated: Value)
    ensures AddLineById(c, d, generated).0.Keys == c.Keys + {Admit(d, generated).0}
  {
  }

  /** The cell after a run is the cell after the rest of the lines, starting from the first line's result. */
  lemma AddByIdUnfold(c: Cell, lines: seq<Record>, generated: seq<Value>)
    requires |generated| == |lines| > 0
    ensures AddById(c, lines, generated).0 == AddById(AddLineById(c, lines[0], generated[0]).0, lines[1..], generated[1..]).0
  {
  }

  /** Adding by `_id`: each document the cell did not hold before is the admitted form of some line. */
  lemma {:induction false} AddByIdDocuments(c: Cell, lines: seq<Record>, generated: seq<Value>)
    requires |generated| == |lines|
    ensures var r := AddById(c, lines, generated);
      forall id :: id in r.0 && id !in c ==> (id, r.0[id]) in Admitted(lines, generated)
    decreases |lines|
  {
    if |lines| > 0 {
      var admitted := Admit(lines[0], generated[0]);
      var next := AddLineById(c, lines[0], generated[0]).0;
      AddByIdDocuments(next, lines[1..], generated[1..]);
      var r := AddById(c, lines, generated);
      AddByIdUnfold(c, lines, generated);
      forall k | k in r.0 && k !in c
        ensures (k, r.0[k]) in Admitted(lines, generated)
      {
        if k in next {
          assert k == admitted.0 && next[k] == admitted.1;
        }
      }
    }
  }

  /**
   * Adding by key path: the cell gains only admitted forms of the lines,
   * whether or not the run is aborted.
   */
  lemma {:induction false} AddLinesByKeyStores(c: Cell, lines: seq<Record>, key: Record -> Value, generated: seq<Value>)
    requires |generated| == |lines|
    ensures var r := AddLinesByKey(c, lines, key, generated);
      && r.0.Keys <= c.Keys + AdmittedIds(lines, generated)
      && forall id :: id in r.0 && id !in c ==> (id, r.0[id]) in Admitted(lines, generated)
    decreases |lines|
  {
    if |lines| > 0 {
      match AddLineByKey(c, lines[0], key, generated[0])
      case None =>
      case Some((next, isNew)) =>
        var (id, doc) := Admit(lines[0], generated[0]);
        assert next.Keys <= c.Keys + {id};
        AddLinesByKeyStores(next, lines[1..], key, generated[1..]);
        var r := AddLinesByKey(c, lines, key, generated);
        assert r.0 == AddLinesByKey(next, lines[1..], key, generated[1..]).0;
        forall k | k in r.0 && k !in c
          ensures (k, r.0[k]) in Admitted(lines, generated)
        {
          if k in next {
            assert k == id && next[k] == doc;
          }
        }
    }
  }

  /** A key value taken in a cell stays taken in any cell that keeps its documents. */
  lemma TakenGrows(c: Cell, c': Cell, key: Record -> Value, v: Value)
    requires Taken(c, key, v)
    requires forall id :: id in c ==> id in c' && c'[id] == c[id]
    ensures Taken(c', key, v)
  {
    var id :| id in c && key(c[id]) == v;
    assert id in c' && key(c'[id]) == v;
  }

  /**
   * Adding by key path, for a key path that does not run through `_id`:
   * once the run completes, every line's key value is taken in the cell,
   * either by a document stored before or by the line itself.
   */
  lemma {:induction false} AddLinesByKeyCovers(c: Cell, lines: seq<Record>, key: Record -> Value, generated: seq<Value>)
    requires |generated| == |lines|
    requires forall d, v :: key(Set(d, IdKey, v)) == key(d)
    ensures var r := AddLinesByKey(c, lines, key, generated);
      !r.2 ==> forall i :: 0 <= i < |lines| ==> Taken(r.0, key, key(lines[i]))
    decreases |lines|
  {
    if |lines| > 0 {
      match AddLineByKey(c, lines[0], key, generated[0])
      case None =>
      case Some((next, isNew)) =>
        var (id, doc) := Admit(lines[0], generated[0]);
        if isNew {
          assert key(doc) == key(lines[0]);
          assert id in next && key(next[id]) == key(lines[0]);
        }
        assert Taken(next, key, key(lines[0]));
        var tail := lines[1..];
        var rest := AddLinesByKey(next, tail, key, generated[1..]);
        AddLinesByKeyCovers(next, tail, key, generated[1..]);
        var r := AddLinesByKey(c, lines, key, generated);
        assert r.0 == rest.0 && r.2 == rest.2;
        if !r.2 {
          TakenGrows(next, rest.0, key, key(lines[0]));
          forall i | 0 <= i < |lines|
            ensures Taken(r.0, key, key(lines[i]))
          {
            if i > 0 {
              assert lines[i] == tail[i - 1];
            }
          }
        }
    }
  }
}

=== FILE: canonical.dfy ===
/**
 * The canonical form that `ordered` produces and `flat` walks: leaves are
 * scalar tokens, and every dict or list becomes a sorted group. A dict member
 * becomes the pair group `[key, ordered(value)]`, just as `ordered` turns a
 * dict into sorted `(key, value)` tuples.
 *
 * The sort needs a total order over canonical forms. Scalars of different
 * kinds are ranked null < boolean < number < string, and all of them come
 * before groups. Within a kind the natural order applies. Strings and groups
 * compare lexicographically.
 */
module Canonical {

  /** A scalar leaf of the flattened stream. */
  datatype Token = TNull | TBool(b: bool) | TNum(n: int) | TStr(s: string)

  /** The ordered form of a JSON value. */
  datatype Canon = Leaf(token: Token) | Group(items: seq<Canon>)

  function Rank(c: Canon): nat {
    match c
    case Leaf(TNull) => 0
    case Leaf(TBool(_)) => 1
    case Leaf(TNum(_)) => 2
    case Leaf(TStr(_)) => 3
    case Group(_) => 4
  }

  /** Code-point lexicographic order on strings, as Python compares `str`. */
  predicate StrLess(a: string, b: string) {
    if |a| == 0 then |b| > 0
    else |b| > 0 && (a[0] < b[0] || (a[0] == b[0] && StrLess(a[1..], b[1..])))
  }

  predicate Less(a: Canon, b: Canon) {
    if Rank(a) != Rank(b) then Rank(a) < Rank(b)
    else match (a, b)
      case (Leaf(TBool(x)), Leaf(TBool(y))) => !x && y
      case (Leaf(TNum(x)), Leaf(TNum(y))) => x < y
      case (Leaf(TStr(x)), Leaf(TStr(y))) => StrLess(x, y)
      case (Group(xs), Group(ys)) => ListLess(xs, ys)
      case _ => false
  }

  /** Lexicographic order on groups, as Python compares lists and tuples. */
  predicate ListLess(xs: seq<Canon>, ys: seq<Canon>) {
    if |xs| == 0 then |ys| > 0
    else |ys| > 0 && (Less(xs[0], ys[0]) || (xs[0] == ys[0] && ListLess(xs[1..], ys[1..])))
  }

  /** `a` may come before `b` in sorted order. */
  predicate Le(a: Canon, b: Canon) {
    !Less(b, a)
  }

  predicate Sorted(s: seq<Canon>) {
    forall i, j :: 0 <= i < j < |s| ==> Le(s[i], s[j])
  }

  // ---------------------------------------------------------------------
  // Less is a strict total order.

  lemma {:induction false} StrLessIrreflexive(a: string)
    ensures !StrLess(a, a)
  {
    if |a| > 0 {
      StrLessIrreflexive(a[1..]);
    }
  }

  lemma {:induction false} StrLessTransitive(a: string, b: string, c: string)
    requires StrLess(a, b) && StrLess(b, c)
    ensures StrLess(a, c)
  {
    if |a| > 0 && a[0] == b[0] && b[0] == c[0] {
      StrLessTransitive(a[1..], b[1..], c[1..]);
    }
  }

  lemma {:induction false} StrLessTotal(a: string, b: string)
    requires a != b
    ensures StrLess(a, b) || StrLess(b, a)
  {
    if |a| > 0 && |b| > 0 && a[0] == b[0] {
      assert a == [a[0]] + a[1..] && b == [b[0]] + b[1..];
      StrLessTotal(a[1..], b[1..]);
    }
  }

  lemma {:induction false} LessIrreflexive(a: Canon)
    ensures !Less(a, a)
  {
    match a
    case Leaf(t) =>
      if t.TStr? {
        StrLessIrreflexive(t.s);
      }
    case Group(xs) =>
      ListLessIrreflexive(xs);
  }

  lemma {:induction false} ListLessIrreflexive(xs: seq<Canon>)
    ensures !ListLess(xs, xs)
  {
    if |xs| > 0 {
      LessIrreflexive(xs[0]);
      ListLessIrreflexive(xs[1..]);
    }
  }

  lemma {:induction false} LessTransitive(a: Canon, b: Canon, c: Canon)
    requires Less(a, b) && Less(b, c)
    ensures Less(a, c)
  {
    if Rank(a) == Rank(b) == Rank(c) {
      match a
      case Leaf(t) =>
        if t.TStr? {
          StrLessTransitive(t.s, b.token.s, c.token.s);
        }
      case Group(xs) =>
        ListLessTransitive(xs, b.items, c.items);
    }
  }

  lemma {:induction false} ListLessTransitive(xs: seq<Canon>, ys: seq<Canon>, zs: seq<Canon>)
    requires ListLess(xs, ys) && ListLess(ys, zs)
    ensures ListLess(xs, zs)
  {
    if |xs| > 0 {
      if Less(xs[0], ys[0]) {
        if Less(ys[0], zs[0]) {
          LessTransitive(xs[0], ys[0], zs[0]);
        }
      } else if !Less(ys[0], zs[0]) {
        ListLessTransitive(xs[1..], ys[1..], zs[1..]);
      }
    }
  }

  lemma {:induction false} LessTotal(a: Canon, b: Canon)
    requires a != b
    ensures Less(a, b) || Less(b, a)
  {
    if Rank(a) == Rank(b) {
      match a
      case Leaf(t) =>
        if t.TStr? {
          StrLessTotal(t.s, b.token.s);
        }
      case Group(xs) =>
        ListLessTotal(xs, b.items);
    }
  }

  lemma {:induction false} ListLessTotal(xs: seq<Canon>, ys: seq<Canon>)
    requires xs != ys
    ensures ListLess(xs, ys) || ListLess(ys, xs)
  {
    if |xs| > 0 && |ys| > 0 {
      if xs[0] != ys[0] {
        LessTotal(xs[0], ys[0]);
      } else {
        assert xs == [xs[0]] + xs[1..] && ys == [ys[0]] + ys[1..];
        ListLessTotal(xs[1..], ys[1..]);
      }
    }
  }

  /** Two forms that may each precede the other are equal. */
  lemma LeAntisymmetric(a: Canon, b: Canon)
    requires Le(a, b) && Le(b, a)
    ensures a == b
  {
    if a != b {
      LessTotal(a, b);
    }
  }

  lemma LessAsymmetric(a: Canon, b: Canon)
    requires Less(a, b)
    ensures !Less(b, a)
  {
    if Less(b, a) {
      LessTransitive(a, b, a);
      LessIrreflexive(a);
    }
  }

  lemma LeTransitive(a: Canon, b: Canon, c: Canon)
    requires Le(a, b) && Le(b, c)
    ensures Le(a, c)
  {
    if Less(c, a) {
      if a == b {
      } else if b == c {
      } else {
        LessTotal(a, b);
        LessTotal(b, c);
        LessTransitive(a, b, c);
        LessTransitive(c, a, c);
        LessIrreflexive(c);
      }
    }
  }

  // ---------------------------------------------------------------------
  // Sorting, and the fact that its result depends only on the multiset.

  function Insert(x: Canon, s: seq<Canon>): (r: seq<Canon>)
    ensures multiset(r) == multiset(s) + multiset{x}
    ensures Sorted(s) ==> Sorted(r)
  {
    if |s| == 0 then [x]
    else if Less(s[0], x) then
      var t := Insert(x, s[1..]);
      assert s == [s[0]] + s[1..];
      InsertSortedAfter(x, s, t);
      [s[0]] + t
    else
      InsertSortedBefore(x, s);
      [x] + s
  }

  lemma InsertSortedAfter(x: Canon, s: seq<Canon>, t: seq<Canon>)
    requires |s| > 0 && Less(s[0], x)
    requires multiset(t) == multiset(s[1..]) + multiset{x}
    requires Sorted(s) ==> Sorted(t)
    ensures Sorted(s) ==> Sorted([s[0]] + t)
  {
    if Sorted(s) {
      forall j | 0 <= j < |t|
        ensures Le(s[0], t[j])
      {
        assert t[j] in multiset(t);
        if t[j] == x {
          LessAsymmetric(s[0], x);
        } else {
          assert t[j] in s[1..];
          var k :| 0 <= k < |s[1..]| && s[1..][k] == t[j];
          assert s[k + 1] == t[j];
        }
      }
    }
  }

  lemma InsertSortedBefore(x: Canon, s: seq<Canon>)
    requires |s| > 0 && !Less(s[0], x)
    ensures Sorted(s) ==> Sorted([x] + s)
  {
    if Sorted(s) {
      forall j | 0 <= j < |s|
        ensures Le(x, s[j])
      {
        if j > 0 {
          LeTransitive(x, s[0], s[j]);
        }
      }
    }
  }

  /** Insertion sort by `Less`, standing in for Python's `sorted`. */
  function Sort(s: seq<Canon>): (r: seq<Canon>)
    ensures Sorted(r)
    ensures multiset(r) == multiset(s)
  {
    if |s| == 0 then []
    else
      assert s == [s[0]] + s[1..];
      Insert(s[0], Sort(s[1..]))
  }

  /** A single element is already sorted. */
  lemma SortSingleton(x: Canon)
    ensures Sort([x]) == [x]
  {
    assert [x][1..] == [];
    assert Sort([x][1..]) == [];
  }

  /** The first element of a sorted sequence may precede every element of it. */
  lemma SortedFirstLe(a: seq<Canon>, x: Canon)
    requires Sorted(a) && x in multiset(a)
    ensures Le(a[0], x)
  {
    var k :| 0 <= k < |a| && a[k] == x;
    if k == 0 {
      LessIrreflexive(x);
    }
  }

  /** Two sorted arrangements of one multiset start with the same element. */
  lemma SortedSameHead(a: seq<Canon>, b: seq<Canon>)
    requires Sorted(a) && Sorted(b)
    requires multiset(a) == multiset(b) && |a| > 0
    ensures |b| > 0 && a[0] == b[0]
  {
    assert a[0] in multiset(a);
    assert |b| > 0;
    assert b[0] in multiset(b);
    SortedFirstLe(a, b[0]);
    SortedFirstLe(b, a[0]);
    LeAntisymmetric(a[0], b[0]);
  }

  /** A multiset has exactly one sorted arrangement. */
  lemma {:induction false} SortedUnique(a: seq<Canon>, b: seq<Canon>)
    requires Sorted(a) && Sorted(b)
    requires multiset(a) == multiset(b)
    ensures a == b
  {
    assert |a| == |multiset(a)| == |multiset(b)| == |b|;
    if |a| > 0 {
      SortedSameHead(a, b);
      assert a == [a[0]] + a[1..] && b == [b[0]] + b[1..];
      assert multiset(a[1..]) == multiset(b[1..]) by {
        assert multiset(a) == multiset([a[0]]) + multiset(a[1..]);
        assert multiset(b) == multiset([b[0]]) + multiset(b[1..]);
        assert multiset(a[1..]) == multiset(a) - multiset([a[0]]);
        assert multiset(b[1..]) == multiset(b) - multiset([b[0]]);
      }
      SortedUnique(a[1..], b[1..]);
    }
  }

  /** Sorting forgets the order of its input: only the multiset matters. */
  lemma SortPermutation(a: seq<Canon>, b: seq<Canon>)
    requires multiset(a) == multiset(b)
    ensures Sort(a) == Sort(b)
  {
    SortedUnique(Sort(a), Sort(b));
  }

  // ---------------------------------------------------------------------
  // Index permutations.

  /** `p` lists each index below `n` exactly once. */
  predicate IsPermutation(p: seq<nat>, n: nat) {
    && |p| == n
    && (forall i :: 0 <= i < n ==> p[i] < n)
    && (forall i, j :: 0 <= i < j < n ==> p[i] != p[j])
  }

  /** `s` rearranged by `p`: position `i` receives `s[p[i]]`. */
  function Apply<T>(s: seq<T>, p: seq<nat>): (r: seq<T>)
    requires IsPermutation(p, |s|)
    ensures |r| == |s|
    ensures forall i :: 0 <= i < |s| ==> r[i] == s[p[i]]
  {
    seq(|s|, i requires 0 <= i < |s| => s[p[i]])
  }

  /**
   * The permutation of the first `|p| - 1` positions left when the last
   * position and the index it names are taken out.
   */
  function Shrink(p: seq<nat>): (r: seq<nat>)
    requires |p| > 0 && IsPermutation(p, |p|)
    ensures IsPermutation(r, |p| - 1)
    ensures forall i :: 0 <= i < |p| - 1 ==> p[i] != p[|p| - 1] && r[i] == if p[i] < p[|p| - 1] then p[i] else p[i] - 1
  {
    var n := |p|;
    var j := p[n - 1];
    var r := seq(n - 1, i requires 0 <= i < n - 1 => assert p[i] != p[n - 1]; if p[i] < j then p[i] else p[i] - 1);
    forall i, k | 0 <= i < k < n - 1
      ensures r[i] != r[k]
    {
      assert p[i] != p[k];
    }
    r
  }

  /** Taking out the last position of a rearrangement. */
  lemma ApplyShrink<T>(s: seq<T>, p: seq<nat>)
    requires |s| > 0 && IsPermutation(p, |s|)
    ensures
      var j := p[|s| - 1];
      Apply(s[..j] + s[j + 1..], Shrink(p)) == Apply(s, p)[..|s| - 1]
  {
    var n := |s|;
    var j := p[n - 1];
    var s' := s[..j] + s[j + 1..];
    var p' := Shrink(p);
    forall i | 0 <= i < n - 1
      ensures s'[p'[i]] == Apply(s, p)[i]
    {
    }
  }

  /** Two sequences whose last element and remaining elements match up have the same multiset. */
  lemma MultisetLastStep<T>(s: seq<T>, t: seq<T>, j: nat)
    requires |t| == |s| > 0 && j < |s| && t[|t| - 1] == s[j]
    requires multiset(t[..|t| - 1]) == multiset(s[..j] + s[j + 1..])
    ensures multiset(t) == multiset(s)
  {
    assert t == t[..|t| - 1] + [s[j]];
    assert s == s[..j] + [s[j]] + s[j + 1..];
  }

  /** Rearranging a sequence by a permutation keeps its multiset. */
  lemma {:induction false} ApplyMultiset<T>(s: seq<T>, p: seq<nat>)
    requires IsPermutation(p, |s|)
    ensures multiset(Apply(s, p)) == multiset(s)
  {
    if |s| > 0 {
      var j := p[|s| - 1];
      ApplyShrink(s, p);
      ApplyMultiset(s[..j] + s[j + 1..], Shrink(p));
      MultisetLastStep(s, Apply(s, p), j);
    }
  }
}

=== FILE: commit.dfy ===
/**
 * `zoo commit`, reduced to the per-document digest: every document the
 * cursor yields is written out with its stale `md5` replaced by a fresh
 * digest of everything except `_id` and `md5`. The command only reads the
 * cell, so no cell is returned.
 */
module CommitCommand {
  import opened Wrappers
  import opened Json
  import opened Hash
  import opened Store

  /** A snapshot line whose `md5` is the digest of the rest of it, as commit writes it. */
  predicate Sealed(md5: string -> string, d: Record) {
    && HasKey(d, IdKey)
    && Get(d, DigestKey) == Some(Str(HashDict(md5, Strip(d))))
  }

  /** Pop `_id`, delete any `md5`, hash what is left, then set `md5` and `_id` back. */
  function CommitRecord(md5: string -> string, d: Record): (r: Record)
    requires HasKey(d, IdKey)
    ensures Get(r, DigestKey) == Some(Str(HashDict(md5, Strip(d))))
    ensures forall k :: k != DigestKey ==> Get(r, k) == Get(d, k)
    ensures Strip(r) == Strip(d)
    ensures Sealed(md5, r)
  {
    var id := Get(d, IdKey).value;
    var body := Remove(Remove(d, IdKey), DigestKey);
    var sealed := Set(body, DigestKey, Str(HashDict(md5, body)));
    var r := Set(sealed, IdKey, id);
    RemoveSetSame(sealed, IdKey, id);
    RemoveSetOther(body, DigestKey, Str(HashDict(md5, body)), IdKey);
    RemoveAbsent(body, IdKey);
    RemoveSetSame(body, DigestKey, Str(HashDict(md5, body)));
    RemoveAbsent(body, DigestKey);
    r
  }

  /** The cursor yields each stored document once. */
  predicate Enumerates(c: Cell, cursor: seq<Value>) {
    && (forall i :: 0 <= i < |cursor| ==> cursor[i] in c)
    && (forall id :: id in c ==> id in cursor)
    && (forall i, j :: 0 <= i < j < |cursor| ==> cursor[i] != cursor[j])
  }

  /** The snapshot lines written for the documents in cursor order. */
  function Commit(md5: string -> string, c: Cell, cursor: seq<Value>): (out: seq<Record>)
    requires Keyed(c) && Enumerates(c, cursor)
    ensures |out| == |cursor| == |c|
    ensures forall i :: 0 <= i < |out| ==>
      && Sealed(md5, out[i])
      && Get(out[i], IdKey) == Some(cursor[i])
      && Strip(out[i]) == Strip(c[cursor[i]])
  {
    EnumerationSize(c, cursor);
    seq(|cursor|, i requires 0 <= i < |cursor| => CommitRecord(md5, c[cursor[i]]))
  }

  lemma EnumerationSize(c: Cell, cursor: seq<Value>)
    requires Enumerates(c, cursor)
    ensures |cursor| == |c|
  {
    var ids := set i | 0 <= i < |cursor| :: cursor[i];
    assert ids == c.Keys;
    SetOfDistinct(cursor);
  }

  lemma {:induction false} SetOfDistinct(s: seq<Value>)
    requires forall i, j :: 0 <= i < j < |s| ==> s[i] != s[j]
    ensures |set i | 0 <= i < |s| :: s[i]| == |s|
  {
    if |s| > 0 {
      var n := |s| - 1;
      SetOfDistinct(s[..n]);
      assert (set i | 0 <= i < |s| :: s[i]) == (set i | 0 <= i < n :: s[..n][i]) + {s[n]};
      assert s[n] !in (set i | 0 <= i < n :: s[..n][i]);
    }
  }

  /** A stale digest left in the stored document makes no difference to what commit writes. */
  lemma CommitIgnoresStaleDigest(md5: string -> string, d: Record, stale: Value)
    requires HasKey(d, IdKey)
    ensures CommitRecord(md5, Set(d, DigestKey, stale)) == CommitRecord(md5, d)
  {
    StripSetReserved(d, DigestKey, stale);
  }

  /** The digest commit writes does not depend on the document's `_id`. */
  lemma CommitDigestIgnoresId(md5: string -> string, d: Record, id: Value)
    requires HasKey(d, IdKey)
    ensures Get(CommitRecord(md5, Set(d, IdKey, id)), DigestKey) == Get(CommitRecord(md5, d), DigestKey)
  {
    StripSetReserved(d, IdKey, id);
  }
}

=== FILE: findings.dfy ===
/**
 * The one place where the source's `pull` departs from its `# new entry`
 * comment: a stored document with no field besides `_id` and `md5` is taken
 * for a missing one, so pulling the same line twice aborts.
 */
module Findings {
  import opened Wrappers
  import opened Json
  import opened Hash
  import opened Store
  import opened InitCommand
  import opened CommitCommand
  import opened PullCommand

  /** The cell `zoo init` makes from the single line `{}` when the generated id is `"a"`: one document with no field besides `_id`. */
  lemma EmptyLineCell()
    ensures Init(map[], [[]], ["a"]).cell == map[Str("a") := [(IdKey, Str("a"))]]
  {
    assert !HasKey([], IdKey);
    assert Stamped([], "a") == [(IdKey, Str("a"))];
    var c' := map[Str("a") := Stamped([], "a")];
    assert Init(c', [], []) == InitOutcome(c', 0, false);
  }

  /**
   * The source's pull aborts on the first line whose `_id` names a stored
   * document with no field besides `_id` and `md5`.
   */
  lemma AsWrittenAbortsOnBareDocument(md5: string -> string, c: Cell, lines: seq<Record>)
    requires |lines| > 0 && Complete(lines[0])
    requires Get(lines[0], IdKey).value in c && Strip(c[Get(lines[0], IdKey).value]) == []
    ensures PullAsWritten(md5, c, lines) == PullOutcome(c, PullCounts(0, 0, 0), Some(DuplicateKey))
  {
    PullAsWrittenUnfold(md5, c, lines);
  }

  /** The cell init makes from the line `{}`: one document holding only its `_id`. */
  lemma BareCell(id: Value)
    ensures
      var c := map[id := [(IdKey, id)]];
      && Keyed(c) && Enumerates(c, [id]) && Strip(c[id]) == []
  {
    var c := map[id := [(IdKey, id)]];
    StripOnlyReserved(c[id]);
  }

  /**
   * Committing a cell whose one document has no field besides `_id` and
   * pulling the snapshot straight back: the corrected pull reports the
   * document unchanged, the source's pull aborts with `DuplicateKeyError`.
   * This shows pull's part only: the source's commit itself raises
   * `KeyError` at `d['sequence']` on such a document, after writing its line,
   * and that signature step is not modelled. `PullAsWrittenNotIdempotent`
   * below needs no commit.
   */
  lemma PullAsWrittenRoundTripFails(md5: string -> string, id: Value)
    ensures
      var c := map[id := [(IdKey, id)]];
      var lines := Commit(md5, c, [id]);
      && PullAsWritten(md5, c, lines).error == Some(DuplicateKey)
      && Pull(md5, c, lines) == PullOutcome(c, PullCounts(1, 0, 0), None)
  {
    var c := map[id := [(IdKey, id)]];
    BareCell(id);
    var lines := Commit(md5, c, [id]);
    CommitPullRoundTrip(md5, c, [id]);
    assert Sealed(md5, lines[0]) && Get(lines[0], IdKey) == Some([id][0]);
    AsWrittenAbortsOnBareDocument(md5, c, lines);
  }

  /** The source's decision for a complete line whose `_id` is not yet taken: insert it. */
  lemma AsWrittenLineInserts(md5: string -> string, c: Cell, line: Record)
    requires Complete(line) && Get(line, IdKey).value !in c
    ensures PullLineAsWritten(md5, c, line) == Success((c[Get(line, IdKey).value := line], Inserted))
  {
    assert Lookup(c, Get(line, IdKey).value) == None;
  }

  /** The source's pull over a single line that it accepts. */
  lemma AsWrittenSingle(md5: string -> string, c: Cell, line: Record, next: Cell, v: Verdict)
    requires PullLineAsWritten(md5, c, line) == Success((next, v))
    ensures PullAsWritten(md5, c, [line]) == PullOutcome(next, Tally(v), None)
  {
    ReconcileSingle(c, line, PullStepAsWritten(md5));
  }

  /** The source's pull stores a complete line whose `_id` is not yet taken. */
  lemma AsWrittenFirstPull(md5: string -> string, c: Cell, line: Record)
    requires Complete(line) && Get(line, IdKey).value !in c
    ensures PullAsWritten(md5, c, [line]) == PullOutcome(c[Get(line, IdKey).value := line], PullCounts(0, 0, 1), None)
  {
    AsWrittenLineInserts(md5, c, line);
    AsWrittenSingle(md5, c, line, c[Get(line, IdKey).value := line], Inserted);
  }

  /** The corrected pull reports a stored, sealed line unchanged. */
  lemma SealedLineSettles(md5: string -> string, line: Record)
    requires Sealed(md5, line)
    ensures
      var c := map[Get(line, IdKey).value := line];
      Pull(md5, c, [line]) == PullOutcome(c, PullCounts(1, 0, 0), None)
  {
    var c := map[Get(line, IdKey).value := line];
    assert Settled(md5, c, line);
    PullSettledIsNoop(md5, c, [line]);
  }

  /**
   * Pulling a line twice into an empty cell, where the line carries nothing
   * but `_id` and `md5`: the source's second pull aborts, the corrected one
   * reports the line unchanged as long as its `md5` is the digest commit
   * would write.
   */
  lemma PullAsWrittenNotIdempotent(md5: string -> string, line: Record)
    requires Complete(line) && Strip(line) == []
    ensures
      var first := PullAsWritten(md5, map[], [line]);
      && first.cell == map[Get(line, IdKey).value := line]
      && first.counts == PullCounts(0, 0, 1) && first.error == None
      && PullAsWritten(md5, first.cell, [line]).error == Some(DuplicateKey)
      && (Sealed(md5, line) ==> Pull(md5, first.cell, [line]) == PullOutcome(first.cell, PullCounts(1, 0, 0), None))
  {
    AsWrittenFirstPull(md5, map[], line);
    var c := map[Get(line, IdKey).value := line];
    AsWrittenAbortsOnBareDocument(md5, c, [line]);
    if Sealed(md5, line) {
      SealedLineSettles(md5, line);
    }
  }

  lemma PullAsWrittenUnfold(md5: string -> string, c: Cell, lines: seq<Record>)
    requires |lines| > 0
    ensures PullAsWritten(md5, c, lines) ==
      match PullLineAsWritten(md5, c, lines[0])
      case Failure(e) => PullOutcome(c, PullCounts(0, 0, 0), Some(e))
      case Success((next, v)) =>
        var rest := PullAsWritten(md5, next, lines[1..]);
        PullOutcome(rest.cell, Plus(Tally(v), rest.counts), rest.error)
  {
  }
}

=== FILE: hash.dfy ===
/**
 * `hash_dict`: MD5 over the in-order text of the token stream
 * `flat(ordered(d))`.
 *
 * MD5 itself is a parameter `md5` of every function that hashes, so nothing
 * here depends on its internals. Python feeds the UTF-8 bytes of each
 * `str(token)` to the hash in turn. That is the same as hashing the UTF-8
 * encoding of the concatenated text, so `md5` is applied to that text.
 */
module Hash {
  import opened Json
  import opened Canonical

  /** `ordered`: sort every dict by member and every list by element, recursively. */
  function Ordered(v: Value): Canon
    decreases v, 1
  {
    match v
    case Null => Leaf(TNull)
    case Bool(b) => Leaf(TBool(b))
    case Num(n) => Leaf(TNum(n))
    case Str(s) => Leaf(TStr(s))
    case Arr(xs) => Group(Sort(OrderedItems(xs)))
    case Obj(ms) => Group(Sort(OrderedMembers(ms)))
  }

  /** The ordered form of each list element, before the list itself is sorted. */
  function OrderedItems(xs: seq<Value>): seq<Canon>
    decreases Arr(xs), 0
  {
    seq(|xs|, i requires 0 <= i < |xs| => Ordered(xs[i]))
  }

  /** Each dict member as the pair `(key, ordered(value))`, before the pairs are sorted. */
  function OrderedMembers(ms: seq<(string, Value)>): seq<Canon>
    decreases Obj(ms), 0
  {
    seq(|ms|, i requires 0 <= i < |ms| => Group([Leaf(TStr(ms[i].0)), Ordered(ms[i].1)]))
  }

  /** `flat`: the leaves of an ordered form, left to right. Empty groups contribute nothing. */
  function Flat(c: Canon): seq<Token> {
    match c
    case Leaf(t) => [t]
    case Group(cs) => FlatItems(cs)
  }

  function FlatItems(cs: seq<Canon>): seq<Token> {
    if |cs| == 0 then [] else Flat(cs[0]) + FlatItems(cs[1..])
  }

  function DigitChar(d: nat): char
    requires d < 10
  {
    "0123456789"[d]
  }

  function NatText(n: nat): string {
    if n < 10 then [DigitChar(n)] else NatText(n / 10) + [DigitChar(n % 10)]
  }

  /** `str(token)` for every kind of token `json.loads` can produce here. */
  function TokenText(t: Token): string {
    match t
    case TNull => "None"
    case TBool(b) => if b then "True" else "False"
    case TNum(n) => if n < 0 then "-" + NatText(-n) else NatText(n)
    case TStr(s) => s
  }

  /** The text fed to the hash: every token's text, in stream order. */
  function Text(ts: seq<Token>): string {
    if |ts| == 0 then "" else TokenText(ts[0]) + Text(ts[1..])
  }

  /**
   * Feeding two token runs one after the other feeds the concatenation of
   * their texts: the digest cannot see where one token ends and the next
   * begins.
   */
  lemma {:induction false} TextAppend(a: seq<Token>, b: seq<Token>)
    ensures Text(a + b) == Text(a) + Text(b)
  {
    if |a| == 0 {
      assert a + b == b;
    } else {
      assert (a + b)[0] == a[0] && (a + b)[1..] == a[1..] + b;
      TextAppend(a[1..], b);
    }
  }

  /** `flat(ordered(d))`. */
  function Tokens(d: Record): seq<Token> {
    Flat(Ordered(Obj(d)))
  }

  /**
   * `hash_dict(d)`. It hashes every member of `d`, reserved fields
   * included: excluding `_id` and `md5` is the caller's job.
   */
  function HashDict(md5: string -> string, d: Record): string {
    md5(Text(Tokens(d)))
  }

  /**
   * The digest sees a record only through the text of its token stream:
   * equal text gives equal digests, and for a collision-free MD5 equal
   * digests mean equal text.
   */
  lemma HashDictByText(md5: string -> string, d1: Record, d2: Record)
    ensures Text(Tokens(d1)) == Text(Tokens(d2)) ==> HashDict(md5, d1) == HashDict(md5, d2)
    ensures (forall a, b :: md5(a) == md5(b) ==> a == b) ==>
      (HashDict(md5, d1) == HashDict(md5, d2) <==> Text(Tokens(d1)) == Text(Tokens(d2)))
  {
  }

  // ---------------------------------------------------------------------
  // Reordering at any depth.

  /**
   * A recipe for rearranging a value: `Reorder(p, inner)` moves element or
   * member `p[i]` to position `i` and then rearranges it by `inner[i]`.
   */
  datatype Shuffle = Keep | Reorder(perm: seq<nat>, inner: seq<Shuffle>)

  /**
   * The value `v` rearranged by `w`: dict members (each key travelling with
   * its value) and list elements permuted, at any depth. A recipe that does
   * not fit the value leaves that level unchanged.
   */
  function Permute(v: Value, w: Shuffle): (r: Value)
    ensures r.Obj? <==> v.Obj?
    ensures r.Arr? <==> v.Arr?
  {
    match w
    case Keep => v
    case Reorder(p, ks) =>
      match v
      case Arr(xs) =>
        if IsPermutation(p, |xs|) && |ks| == |xs|
        then Arr(seq(|xs|, i requires 0 <= i < |xs| => Permute(xs[p[i]], ks[i])))
        else v
      case Obj(ms) =>
        if IsPermutation(p, |ms|) && |ks| == |ms|
        then Obj(seq(|ms|, i requires 0 <= i < |ms| => (ms[p[i]].0, Permute(ms[p[i]].1, ks[i]))))
        else v
      case _ => v
  }

  /** Reordering dict members or list elements, at any depth, does not change the ordered form. */
  lemma {:induction false} OrderedPermute(v: Value, w: Shuffle)
    ensures Ordered(Permute(v, w)) == Ordered(v)
    decreases w
  {
    match w
    case Keep =>
    case Reorder(p, ks) =>
      match v
      case Arr(xs) =>
        if IsPermutation(p, |xs|) && |ks| == |xs| {
          var ys := Permute(v, w).items;
          var before := OrderedItems(xs);
          var after := OrderedItems(ys);
          forall i | 0 <= i < |xs|
            ensures after[i] == before[p[i]]
          {
            OrderedPermute(xs[p[i]], ks[i]);
          }
          assert after == Apply(before, p);
          ApplyMultiset(before, p);
          SortPermutation(after, before);
        }
      case Obj(ms) =>
        if IsPermutation(p, |ms|) && |ks| == |ms| {
          var ns := Permute(v, w).members;
          var before := OrderedMembers(ms);
          var after := OrderedMembers(ns);
          forall i | 0 <= i < |ms|
            ensures after[i] == before[p[i]]
          {
            OrderedPermute(ms[p[i]].1, ks[i]);
          }
          assert after == Apply(before, p);
          ApplyMultiset(before, p);
          SortPermutation(after, before);
        }
      case _ =>
  }

  /**
   * Two records that differ only in the order of dict members or list
   * elements, at any depth, hash equal.
   */
  lemma HashDictPermute(md5: string -> string, d: Record, w: Shuffle)
    ensures HashDict(md5, Permute(Obj(d), w).members) == HashDict(md5, d)
  {
    OrderedPermute(Obj(d), w);
  }

  /** Swapping the two members of a two-member object, each value rearranged by its own recipe. */
  lemma PermuteSwap(a: (string, Value), b: (string, Value), wa: Shuffle, wb: Shuffle)
    ensures Permute(Obj([a, b]), Reorder([1, 0], [wb, wa])) == Obj([(b.0, Permute(b.1, wb)), (a.0, Permute(a.1, wa))])
  {
    assert IsPermutation([1, 0], 2);
  }

  /**
   * `{a: u, b: {x: p, y: q}}` and `{b: {y: q, x: p}, a: u}` hash equal, for
   * any keys and values; for instance `{"a": 1, "b": {"x": 2, "y": 3}}` and
   * `{"b": {"y": 3, "x": 2}, "a": 1}`.
   */
  lemma HashDictReorderedExample(md5: string -> string, a: string, b: string, x: string, y: string, u: Value, p: Value, q: Value)
    requires a != b
    ensures
      var d1 := [(a, u), (b, Obj([(x, p), (y, q)]))];
      var d2 := [(b, Obj([(y, q), (x, p)])), (a, u)];
      d1 != d2 && HashDict(md5, d1) == HashDict(md5, d2)
  {
    var inner := Reorder([1, 0], [Keep, Keep]);
    PermuteSwap((y, q), (x, p), Keep, Keep);
    var d2 := [(b, Obj([(y, q), (x, p)])), (a, u)];
    PermuteSwap(d2[0], d2[1], inner, Keep);
    HashDictPermute(md5, d2, Reorder([1, 0], [Keep, inner]));
  }

  // ---------------------------------------------------------------------
  // What the flat token text loses.

  /** A one-member record streams its key and then its value's tokens. */
  lemma TokensSingleton(k: string, v: Value)
    ensures Tokens([(k, v)]) == [TStr(k)] + Flat(Ordered(v))
  {
    var pair := Group([Leaf(TStr(k)), Ordered(v)]);
    assert OrderedMembers([(k, v)]) == [pair];
    SortSingleton(pair);
    assert Ordered(Obj([(k, v)])) == Group([pair]);
    FlatItemsSingleton(pair);
    assert FlatItems([Leaf(TStr(k)), Ordered(v)]) == [TStr(k)] + FlatItems([Ordered(v)]);
    FlatItemsSingleton(Ordered(v));
  }

  lemma FlatItemsSingleton(c: Canon)
    ensures FlatItems([c]) == Flat(c)
  {
    assert [c][1..] == [];
    assert FlatItems([c]) == Flat(c) + FlatItems([]);
  }

  /** The text of a record holding one string member is its key followed by its value. */
  lemma StrMemberText(k: string, s: string)
    ensures Text(Tokens([(k, Str(s))])) == k + s
  {
    TokensSingleton(k, Str(s));
    assert Flat(Ordered(Str(s))) == [TStr(s)];
    assert Text([TStr(s)]) == s + Text([]);
    assert Text([TStr(k), TStr(s)]) == k + Text([TStr(s)]);
  }

  /**
   * Nesting is erased and tokens are concatenated with no separator, so
   * `{k: s + t}` and `{k + s: t}` hash equal under every MD5 (for example
   * `{"a": "bc"}` and `{"ab": "c"}`).
   */
  lemma HashDictBoundaryCollision(md5: string -> string, k: string, s: string, t: string)
    requires |s| > 0
    ensures
      var d1 := [(k, Str(s + t))];
      var d2 := [(k + s, Str(t))];
      d1 != d2 && HashDict(md5, d1) == HashDict(md5, d2)
  {
    BoundaryText(k, s, t);
    assert |[(k, Str(s + t))][0].0| != |[(k + s, Str(t))][0].0|;
  }

  lemma BoundaryText(k: string, s: string, t: string)
    ensures Text(Tokens([(k, Str(s + t))])) == Text(Tokens([(k + s, Str(t))]))
  {
    StrMemberText(k, s + t);
    StrMemberText(k + s, t);
    assert k + (s + t) == (k + s) + t;
  }

  /** The text of a record holding one integer member is its key followed by the number's digits. */
  lemma NumMemberText(k: string, n: nat)
    ensures Text(Tokens([(k, Num(n))])) == k + NatText(n)
  {
    TokensSingleton(k, Num(n));
    assert Flat(Ordered(Num(n))) == [TNum(n)];
    assert Text([TNum(n)]) == NatText(n) + Text([]);
    assert Text([TStr(k), TNum(n)]) == k + Text([TNum(n)]);
  }

  /**
   * `str` erases the type of a token: the number `n` and the string of its
   * decimal digits hash equal (for example `{"x": 1}` and `{"x": "1"}`).
   */
  lemma HashDictTypeCollision(md5: string -> string, k: string, n: nat)
    ensures
      var d1 := [(k, Num(n))];
      var d2 := [(k, Str(NatText(n)))];
      d1 != d2 && HashDict(md5, d1) == HashDict(md5, d2)
  {
    NumMemberText(k, n);
    StrMemberText(k, NatText(n));
    assert [(k, Num(n))][0].1.Num?;
  }

  /**
   * `hash_dict` does not skip `_id` itself: for some MD5 (here the identity),
   * two records that differ only in `_id` hash differently.
   */
  lemma HashDictSeesId(a: string, b: string)
    requires a != b
    ensures HashDict(s => s, [(IdKey, Str(a))]) != HashDict(s => s, [(IdKey, Str(b))])
  {
    StrMemberText(IdKey, a);
    StrMemberText(IdKey, b);
    assert (IdKey + a)[|IdKey|..] == a;
    assert (IdKey + b)[|IdKey|..] == b;
  }
}

=== FILE: init.dfy ===
/**
 * `zoo init`: load every line of a snapshot into the cell under a freshly
 * generated `_id`.
 */
module InitCommand {
  import opened Wrappers
  import opened Json
  import opened Store

  /**
   * The cell after the run, the number of lines inserted, and whether the
   * run was aborted by a `DuplicateKeyError`. Inserts made before the abort
   * stay in the cell.
   */
  datatype InitOutcome = InitOutcome(cell: Cell, inserted: nat, failed: bool)

  /** The generated ids are new to the cell and pairwise distinct. */
  predicate FreshIds(c: Cell, uuids: seq<string>) {
    && (forall i :: 0 <= i < |uuids| ==> Str(uuids[i]) !in c)
    && (forall i, j :: 0 <= i < j < |uuids| ==> uuids[i] != uuids[j])
  }

  /** The `_id` values made from a run of generated ids. */
  function Ids(uuids: seq<string>): set<Value> {
    if |uuids| == 0 then {} else {Str(uuids[0])} + Ids(uuids[1..])
  }

  /** The line as it is stored: its own `_id`, if any, overwritten by the generated one. */
  function Stamped(d: Record, uuid: string): Record {
    Set(d, IdKey, Str(uuid))
  }

  /**
   * `uuids[i]` stands for the `str(uuid4())` drawn for line `i`; a clash with
   * a stored `_id` raises `DuplicateKeyError`, which aborts the command.
   */
  function Init(c: Cell, lines: seq<Record>, uuids: seq<string>): (r: InitOutcome)
    requires |uuids| == |lines|
    ensures !r.failed <==> FreshIds(c, uuids)
    ensures !r.failed ==> r.inserted == |lines|
    ensures r.failed ==> r.inserted < |lines|
    ensures forall id :: id in c ==> id in r.cell && r.cell[id] == c[id]
    ensures Keyed(c) ==> Keyed(r.cell)
    decreases |lines|
  {
    if |lines| == 0 then InitOutcome(c, 0, false)
    else
      var id := Str(uuids[0]);
      if id in c then InitOutcome(c, 0, true)
      else
        var c' := c[id := Stamped(lines[0], uuids[0])];
        FreshIdsStep(c, uuids, c');
        var rest := Init(c', lines[1..], uuids[1..]);
        InitOutcome(rest.cell, rest.inserted + 1, rest.failed)
  }

  lemma FreshIdsStep(c: Cell, uuids: seq<string>, c': Cell)
    requires |uuids| > 0 && Str(uuids[0]) !in c
    requires c'.Keys == c.Keys + {Str(uuids[0])}
    ensures FreshIds(c', uuids[1..]) <==> FreshIds(c, uuids)
  {
    if FreshIds(c, uuids) {
      forall i | 0 <= i < |uuids[1..]|
        ensures Str(uuids[1..][i]) !in c'
      {
        assert uuids[0] != uuids[i + 1];
      }
    }
    if FreshIds(c', uuids[1..]) {
      forall i, j | 0 <= i < j < |uuids|
        ensures uuids[i] != uuids[j]
      {
        assert uuids[j] == uuids[1..][j - 1];
        if i > 0 {
          assert uuids[i] == uuids[1..][i - 1];
        }
      }
    }
  }

  /**
   * Every line inserted so far is stored under its generated id with its
   * other fields intact, and nothing else was added.
   */
  lemma {:induction false} InitStores(c: Cell, lines: seq<Record>, uuids: seq<string>)
    requires |uuids| == |lines|
    ensures var r := Init(c, lines, uuids);
      && r.cell.Keys == c.Keys + Ids(uuids[..r.inserted])
      && forall i :: 0 <= i < r.inserted ==>
           Str(uuids[i]) in r.cell && r.cell[Str(uuids[i])] == Stamped(lines[i], uuids[i])
    decreases |lines|
  {
    var r := Init(c, lines, uuids);
    if |lines| > 0 && Str(uuids[0]) !in c {
      var c' := c[Str(uuids[0]) := Stamped(lines[0], uuids[0])];
      InitStores(c', lines[1..], uuids[1..]);
      var rest := Init(c', lines[1..], uuids[1..]);
      assert r.inserted == rest.inserted + 1;
      assert uuids[..r.inserted][1..] == uuids[1..][..rest.inserted];
      forall i | 0 <= i < r.inserted
        ensures Str(uuids[i]) in r.cell && r.cell[Str(uuids[i])] == Stamped(lines[i], uuids[i])
      {
        if i > 0 {
          assert uuids[i] == uuids[1..][i - 1] && lines[i] == lines[1..][i - 1];
        }
      }
    }
  }
}

=== FILE: json.dfy ===
/**
 * Parsed JSON documents, as `json.loads` hands them to the cell commands.
 *
 * An object keeps its members in the order they appear, as a Python dict
 * keeps insertion order, so two objects with the same members in a different
 * order are different values here; the hashing module proves that the digest
 * cannot tell them apart. Unlike a dict, a record may repeat a key: `Get`
 * then reads the first member, where `json.loads` keeps the last. The
 * model's own edits (`Set`, `Overwrite`, `Remove`) never introduce a repeated
 * key.
 */
module Json {
  import opened Wrappers

  /** A JSON value. Numbers are integers; floating point is not modelled. */
  datatype Value =
    | Null
    | Bool(b: bool)
    | Num(n: int)
    | Str(s: string)
    | Arr(items: seq<Value>)
    | Obj(members: seq<(string, Value)>)

  /** A record is a top-level JSON object: its members in insertion order. */
  type Record = seq<(string, Value)>

  /** The reserved primary-key field. */
  const IdKey: string := "_id"

  /** The reserved content-digest field written by commit and read by pull. */
  const DigestKey: string := "md5"

  /** `k in d`. */
  predicate HasKey(d: Record, k: string) {
    |d| > 0 && (d[0].0 == k || HasKey(d[1..], k))
  }

  /** `d.get(k)`: the value of the first member named `k`. */
  function Get(d: Record, k: string): (r: Option<Value>)
    ensures r.Some? <==> HasKey(d, k)
    ensures r.Some? ==> (k, r.value) in d
  {
    if |d| == 0 then None
    else if d[0].0 == k then Some(d[0].1)
    else Get(d[1..], k)
  }

  /** Replaces the value of every member named `k`, keeping its position. */
  function Overwrite(d: Record, k: string, v: Value): (r: Record)
    ensures |r| == |d|
    ensures forall i :: 0 <= i < |d| ==> r[i].0 == d[i].0
    ensures forall i :: 0 <= i < |d| ==> r[i].1 == (if d[i].0 == k then v else d[i].1)
  {
    if |d| == 0 then []
    else [if d[0].0 == k then (k, v) else d[0]] + Overwrite(d[1..], k, v)
  }

  /** `d[k] = v`: overwrite in place when `k` is present, append otherwise. */
  function Set(d: Record, k: string, v: Value): (r: Record)
    ensures Get(r, k) == Some(v) && HasKey(r, k)
    ensures forall j :: j != k ==> Get(r, j) == Get(d, j) && HasKey(r, j) == HasKey(d, j)
  {
    if HasKey(d, k) then
      OverwriteGet(d, k, v);
      Overwrite(d, k, v)
    else
      AppendGet(d, k, v);
      d + [(k, v)]
  }

  /** `d.pop(k)` / `del d[k]` / a projection `{k: 0}`: drop every member named `k`. */
  function Remove(d: Record, k: string): (r: Record)
    ensures !HasKey(r, k)
    ensures forall j :: j != k ==> Get(r, j) == Get(d, j) && HasKey(r, j) == HasKey(d, j)
    ensures forall m :: m in r ==> m in d
  {
    if |d| == 0 then []
    else if d[0].0 == k then Remove(d[1..], k)
    else [d[0]] + Remove(d[1..], k)
  }

  /**
   * The record without its reserved fields: what `find_one` returns under
   * the projection `{'_id': 0, 'md5': 0}`, and what commit hashes after
   * popping `_id` and deleting `md5`.
   */
  function Strip(d: Record): (r: Record)
    ensures !HasKey(r, IdKey) && !HasKey(r, DigestKey)
    ensures forall j :: j != IdKey && j != DigestKey ==> Get(r, j) == Get(d, j)
  {
    Remove(Remove(d, IdKey), DigestKey)
  }

  lemma {:induction false} OverwriteGet(d: Record, k: string, v: Value)
    requires HasKey(d, k)
    ensures Get(Overwrite(d, k, v), k) == Some(v) && HasKey(Overwrite(d, k, v), k)
    ensures forall j :: j != k ==> Get(Overwrite(d, k, v), j) == Get(d, j) && HasKey(Overwrite(d, k, v), j) == HasKey(d, j)
  {
    if d[0].0 != k {
      OverwriteGet(d[1..], k, v);
    }
    forall j | j != k
      ensures Get(Overwrite(d, k, v), j) == Get(d, j) && HasKey(Overwrite(d, k, v), j) == HasKey(d, j)
    {
      if d[0].0 == k {
        OverwriteOther(d[1..], k, v, j);
      }
      assert Get(Overwrite(d, k, v), j).Some? == Get(d, j).Some?;
    }
  }

  lemma {:induction false} OverwriteOther(d: Record, k: string, v: Value, j: string)
    requires j != k
    ensures Get(Overwrite(d, k, v), j) == Get(d, j)
  {
    if |d| > 0 {
      OverwriteOther(d[1..], k, v, j);
    }
  }

  lemma {:induction false} AppendGet(d: Record, k: string, v: Value)
    requires !HasKey(d, k)
    ensures Get(d + [(k, v)], k) == Some(v) && HasKey(d + [(k, v)], k)
    ensures forall j :: j != k ==> Get(d + [(k, v)], j) == Get(d, j) && HasKey(d + [(k, v)], j) == HasKey(d, j)
  {
    if |d| > 0 {
      assert (d + [(k, v)])[1..] == d[1..] + [(k, v)];
      AppendGet(d[1..], k, v);
    }
    forall j | j != k
      ensures HasKey(d + [(k, v)], j) == HasKey(d, j)
    {
      assert Get(d + [(k, v)], j).Some? == Get(d, j).Some?;
    }
  }

  lemma {:induction false} RemoveAppend(a: Record, b: Record, k: string)
    ensures Remove(a + b, k) == Remove(a, k) + Remove(b, k)
  {
    if |a| == 0 {
      assert a + b == b;
    } else {
      assert (a + b)[0] == a[0];
      assert (a + b)[1..] == a[1..] + b;
      RemoveAppend(a[1..], b, k);
    }
  }

  lemma {:induction false} RemoveAbsent(d: Record, k: string)
    requires !HasKey(d, k)
    ensures Remove(d, k) == d
  {
    if |d| > 0 {
      RemoveAbsent(d[1..], k);
    }
  }

  lemma {:induction false} RemoveOverwrite(d: Record, k: string, v: Value, a: string)
    ensures Remove(Overwrite(d, k, v), a) == if a == k then Remove(d, k) else Overwrite(Remove(d, a), k, v)
  {
    if |d| > 0 {
      RemoveOverwrite(d[1..], k, v, a);
    }
  }

  /** Setting a field and then removing it is the same as just removing it. */
  lemma RemoveSetSame(d: Record, k: string, v: Value)
    ensures Remove(Set(d, k, v), k) == Remove(d, k)
  {
    if HasKey(d, k) {
      RemoveOverwrite(d, k, v, k);
    } else {
      RemoveAppend(d, [(k, v)], k);
    }
  }

  /** Removing one field commutes with setting another. */
  lemma RemoveSetOther(d: Record, k: string, v: Value, a: string)
    requires a != k
    ensures Remove(Set(d, k, v), a) == Set(Remove(d, a), k, v)
  {
    if HasKey(d, k) {
      RemoveOverwrite(d, k, v, a);
    } else {
      RemoveAppend(d, [(k, v)], a);
    }
  }

  /**
   * Whatever is written into `_id` or `md5` is invisible once the reserved
   * fields are stripped: the digest never sees the primary key or a stale
   * digest.
   */
  lemma StripSetReserved(d: Record, k: string, v: Value)
    requires k == IdKey || k == DigestKey
    ensures Strip(Set(d, k, v)) == Strip(d)
  {
    if k == IdKey {
      RemoveSetSame(d, IdKey, v);
    } else {
      RemoveSetOther(d, DigestKey, v, IdKey);
      RemoveSetSame(Remove(d, IdKey), DigestKey, v);
    }
  }

  /** A record holding nothing but reserved fields strips to the empty record. */
  lemma {:induction false} StripOnlyReserved(d: Record)
    requires forall i :: 0 <= i < |d| ==> d[i].0 == IdKey || d[i].0 == DigestKey
    ensures Strip(d) == []
  {
    if |d| > 0 {
      assert forall i :: 0 <= i < |d[1..]| ==> d[1..][i] == d[i + 1];
      StripOnlyReserved(d[1..]);
      if d[0].0 != IdKey {
        assert Remove(d, IdKey) == [d[0]] + Remove(d[1..], IdKey);
      }
    }
  }
}

=== FILE: pull.dfy ===
/**
 * `zoo pull`: reconcile snapshot lines back into the cell. Each line is
 * looked up by `_id`; an absent document is inserted, a present one is kept
 * when the line's `md5` equals a fresh digest of the stored document without
 * `_id` and `md5`, and is otherwise replaced wholesale by the line.
 */
module PullCommand {
  import opened Wrappers
  import opened Json
  import opened Hash
  import opened Store
  import opened CommitCommand

  datatype Verdict = Inserted | Unchanged | Replaced

  /**
   * What aborts the loop: a line without `_id` or without `md5` (a
   * `KeyError`), or an insert that hits an existing `_id`.
   */
  datatype PullError = MissingId | MissingDigest | DuplicateKey

  datatype PullCounts = PullCounts(nochange: nat, replaced: nat, inserted: nat) {
    function Total(): nat {
      nochange + replaced + inserted
    }
  }

  /** The cell after the loop, the counts, and the error that stopped it, if any. */
  datatype PullOutcome = PullOutcome(cell: Cell, counts: PullCounts, error: Option<PullError>)

  /** The decision made for one line. */
  type Step = (Cell, Record) -> Result<(Cell, Verdict), PullError>

  function Tally(v: Verdict): PullCounts {
    match v
    case Inserted => PullCounts(0, 0, 1)
    case Unchanged => PullCounts(1, 0, 0)
    case Replaced => PullCounts(0, 1, 0)
  }

  function Plus(a: PullCounts, b: PullCounts): PullCounts {
    PullCounts(a.nochange + b.nochange, a.replaced + b.replaced, a.inserted + b.inserted)
  }

  /** One more verdict adds one to the total. */
  lemma TallyPlus(v: Verdict, rest: PullCounts)
    ensures Plus(Tally(v), rest).Total() == rest.Total() + 1
  {
  }

  /**
   * The loop over the lines: each line that is processed is counted exactly
   * once, and the first failing line stops the run with the cell as it was.
   */
  function Reconcile(c: Cell, lines: seq<Record>, step: Step): (r: PullOutcome)
    ensures r.error.None? ==> r.counts.Total() == |lines|
    ensures r.error.Some? ==> r.counts.Total() < |lines|
    decreases |lines|
  {
    if |lines| == 0 then PullOutcome(c, PullCounts(0, 0, 0), None)
    else
      var outcome := step(c, lines[0]);
      if outcome.Failure? then PullOutcome(c, PullCounts(0, 0, 0), Some(outcome.error))
      else
        var rest := Reconcile(outcome.value.0, lines[1..], step);
        TallyPlus(outcome.value.1, rest.counts);
        PullOutcome(rest.cell, Plus(Tally(outcome.value.1), rest.counts), rest.error)
  }

  /** `find_one({'_id': id}, {'_id': 0, 'md5': 0})`. */
  function Lookup(c: Cell, id: Value): (r: Option<Record>)
    ensures r.Some? <==> id in c
    ensures r.Some? ==> !HasKey(r.value, IdKey) && !HasKey(r.value, DigestKey)
    ensures r.Some? ==> forall k :: k != IdKey && k != DigestKey ==> Get(r.value, k) == Get(c[id], k)
  {
    if id in c then Some(Strip(c[id])) else None
  }

  /** A stored document whose fresh digest is the digest a line carries. */
  predicate Matches(md5: string -> string, c: Cell, id: Value, digest: Value) {
    id in c && digest == Str(HashDict(md5, Strip(c[id])))
  }

  /**
   * The decision for one line, absence judged by `d_old is None`: the
   * corrected reading of the source's `if not d_old`.
   */
  function PullLine(md5: string -> string, c: Cell, d: Record): (r: Result<(Cell, Verdict), PullError>)
    ensures r.Success? <==> HasKey(d, IdKey) && HasKey(d, DigestKey)
    ensures r.Success? ==>
      var id := Get(d, IdKey).value;
      var (next, v) := r.value;
      && (v == Inserted <==> id !in c)
      && (v == Unchanged <==> Matches(md5, c, id, Get(d, DigestKey).value))
      && next == (if v == Unchanged then c else c[id := d])
  {
    match Get(d, IdKey)
    case None => Failure(MissingId)
    case Some(id) =>
      match Get(d, DigestKey)
      case None => Failure(MissingDigest)
      case Some(digest) =>
        match Lookup(c, id)
        case None => Success((c[id := d], Inserted))
        case Some(stored) =>
          if digest == Str(HashDict(md5, stored)) then Success((c, Unchanged))
          else Success((c[id := d], Replaced))
  }

  /**
   * The decision for one line with the source's own absence test
   * `not d_old`, which also holds for the empty projection `{}` of a stored
   * document that has no field besides `_id` and `md5`; the insert that
   * follows then hits the existing `_id`.
   */
  function PullLineAsWritten(md5: string -> string, c: Cell, d: Record): (r: Result<(Cell, Verdict), PullError>)
    ensures r == Failure(DuplicateKey) <==>
      HasKey(d, IdKey) && HasKey(d, DigestKey) && Lookup(c, Get(d, IdKey).value) == Some([])
    ensures r != Failure(DuplicateKey) ==> r == PullLine(md5, c, d)
  {
    match Get(d, IdKey)
    case None => Failure(MissingId)
    case Some(id) =>
      match Get(d, DigestKey)
      case None => Failure(MissingDigest)
      case Some(digest) =>
        match Lookup(c, id)
        case Some(stored) =>
          if stored == [] then Failure(DuplicateKey)
          else if digest == Str(HashDict(md5, stored)) then Success((c, Unchanged))
          else Success((c[id := d], Replaced))
        case None => Success((c[id := d], Inserted))
  }

  function PullStep(md5: string -> string): Step {
    (c, d) => PullLine(md5, c, d)
  }

  function PullStepAsWritten(md5: string -> string): Step {
    (c, d) => PullLineAsWritten(md5, c, d)
  }

  /** `zoo pull` with the corrected absence test; the rest of the model uses this one. */
  function Pull(md5: string -> string, c: Cell, lines: seq<Record>): PullOutcome {
    Reconcile(c, lines, PullStep(md5))
  }

  /** `zoo pull` with the source's own absence test `not d_old`. */
  function PullAsWritten(md5: string -> string, c: Cell, lines: seq<Record>): PullOutcome {
    Reconcile(c, lines, PullStepAsWritten(md5))
  }

  /** A loop over one line reports that line's verdict, or stops on its error. */
  lemma ReconcileSingle(c: Cell, line: Record, step: Step)
    ensures step(c, line).Failure? ==>
      Reconcile(c, [line], step) == PullOutcome(c, PullCounts(0, 0, 0), Some(step(c, line).error))
    ensures step(c, line).Success? ==>
      Reconcile(c, [line], step) == PullOutcome(step(c, line).value.0, Tally(step(c, line).value.1), None)
  {
    assert [line][0] == line && [line][1..] == [];
    var outcome := step(c, line);
    if outcome.Success? {
      var rest := Reconcile(outcome.value.0, [], step);
      assert rest == PullOutcome(outcome.value.0, PullCounts(0, 0, 0), None);
      var t := Tally(outcome.value.1);
      assert Plus(t, rest.counts) == PullCounts(t.nochange, t.replaced, t.inserted) == t;
    }
  }

  /** Every line, taken on its own against `c`, leaves `c` alone and counts as unchanged. */
  predicate KeepsAll(c: Cell, lines: seq<Record>, step: Step)
    decreases |lines|
  {
    |lines| == 0 || (step(c, lines[0]) == Success((c, Unchanged)) && KeepsAll(c, lines[1..], step))
  }

  lemma {:induction false} KeepsAllFromEach(c: Cell, lines: seq<Record>, step: Step)
    requires forall i :: 0 <= i < |lines| ==> step(c, lines[i]) == Success((c, Unchanged))
    ensures KeepsAll(c, lines, step)
    decreases |lines|
  {
    if |lines| > 0 {
      var tail := lines[1..];
      forall i | 0 <= i < |tail|
        ensures step(c, tail[i]) == Success((c, Unchanged))
      {
        assert tail[i] == lines[i + 1];
      }
      KeepsAllFromEach(c, tail, step);
    }
  }

  /** A loop whose every line leaves the cell alone and counts as unchanged. */
  lemma {:induction false} ReconcileNoop(c: Cell, lines: seq<Record>, step: Step)
    requires KeepsAll(c, lines, step)
    ensures Reconcile(c, lines, step) == PullOutcome(c, PullCounts(|lines|, 0, 0), None)
    decreases |lines|
  {
    if |lines| > 0 {
      var outcome := step(c, lines[0]);
      assert outcome.Success? && outcome.value.0 == c && outcome.value.1 == Unchanged;
      var rest := Reconcile(c, lines[1..], step);
      assert Reconcile(c, lines, step) == PullOutcome(rest.cell, Plus(Tally(Unchanged), rest.counts), rest.error);
      ReconcileNoop(c, lines[1..], step);
      assert Plus(Tally(Unchanged), PullCounts(|lines| - 1, 0, 0)) == PullCounts(|lines|, 0, 0);
    }
  }

  // ---------------------------------------------------------------------
  // Properties of a whole pull.

  /** A line that pull can read: it has both an `_id` and an `md5`. */
  predicate Complete(d: Record) {
    HasKey(d, IdKey) && HasKey(d, DigestKey)
  }

  /** One step of the loop, spelled out. */
  lemma PullUnfold(md5: string -> string, c: Cell, lines: seq<Record>)
    requires |lines| > 0
    ensures Pull(md5, c, lines) ==
      match PullLine(md5, c, lines[0])
      case Failure(e) => PullOutcome(c, PullCounts(0, 0, 0), Some(e))
      case Success((next, v)) =>
        var rest := Pull(md5, next, lines[1..]);
        PullOutcome(rest.cell, Plus(Tally(v), rest.counts), rest.error)
  {
  }

  /** Some line lacks `_id` or `md5`. */
  predicate SomeIncomplete(lines: seq<Record>) {
    exists i :: 0 <= i < |lines| && !Complete(lines[i])
  }

  /** Past a complete first line, an incomplete line is one of the rest. */
  lemma SomeIncompleteTail(lines: seq<Record>)
    requires |lines| > 0 && Complete(lines[0])
    ensures SomeIncomplete(lines) <==> SomeIncomplete(lines[1..])
  {
    if SomeIncomplete(lines) {
      var i :| 0 <= i < |lines| && !Complete(lines[i]);
      assert lines[1..][i - 1] == lines[i];
    }
    if SomeIncomplete(lines[1..]) {
      var i :| 0 <= i < |lines[1..]| && !Complete(lines[1..][i]);
      assert lines[i + 1] == lines[1..][i];
    }
  }

  /** Pull stops early exactly when some line lacks `_id` or `md5`; otherwise every line is counted. */
  lemma {:induction false} PullAbortsIffIncomplete(md5: string -> string, c: Cell, lines: seq<Record>)
    ensures Pull(md5, c, lines).error.Some? <==> exists i :: 0 <= i < |lines| && !Complete(lines[i])
    decreases |lines|
  {
    if |lines| > 0 {
      PullUnfold(md5, c, lines);
      var outcome := PullLine(md5, c, lines[0]);
      if outcome.Failure? {
        assert !Complete(lines[0]);
      } else {
        PullAbortsIffIncomplete(md5, outcome.value.0, lines[1..]);
        assert Pull(md5, c, lines).error == Pull(md5, outcome.value.0, lines[1..]).error;
        SomeIncompleteTail(lines);
      }
    }
  }

  /** A document whose `_id` no line carries is left exactly as it was. */
  lemma {:induction false} PullLeavesOthers(md5: string -> string, c: Cell, lines: seq<Record>, k: Value)
    requires forall i :: 0 <= i < |lines| ==> Get(lines[i], IdKey) != Some(k)
    ensures var r := Pull(md5, c, lines);
      && (k in r.cell <==> k in c)
      && (k in c ==> r.cell[k] == c[k])
    decreases |lines|
  {
    if |lines| > 0 {
      PullUnfold(md5, c, lines);
      match PullLine(md5, c, lines[0])
      case Failure(e) =>
      case Success((next, v)) =>
        assert forall i :: 0 <= i < |lines[1..]| ==> lines[1..][i] == lines[i + 1];
        PullLeavesOthers(md5, next, lines[1..], k);
    }
  }

  /** Pull keeps every stored document under its own `_id`. */
  lemma {:induction false} PullKeepsKeyed(md5: string -> string, c: Cell, lines: seq<Record>)
    requires Keyed(c)
    ensures Keyed(Pull(md5, c, lines).cell)
    decreases |lines|
  {
    if |lines| > 0 {
      PullUnfold(md5, c, lines);
      match PullLine(md5, c, lines[0])
      case Failure(e) =>
      case Success((next, v)) =>
        PullKeepsKeyed(md5, next, lines[1..]);
    }
  }

  /** The cell already holds, under the line's `_id`, a document whose fresh digest is the line's `md5`. */
  predicate Settled(md5: string -> string, c: Cell, d: Record) {
    && Complete(d)
    && Matches(md5, c, Get(d, IdKey).value, Get(d, DigestKey).value)
  }

  /** When every line is settled, pull changes nothing and reports every line unchanged. */
  lemma PullSettledIsNoop(md5: string -> string, c: Cell, lines: seq<Record>)
    requires forall i :: 0 <= i < |lines| ==> Settled(md5, c, lines[i])
    ensures Pull(md5, c, lines) == PullOutcome(c, PullCounts(|lines|, 0, 0), None)
  {
    forall i | 0 <= i < |lines|
      ensures PullStep(md5)(c, lines[i]) == Success((c, Unchanged))
    {
      assert Settled(md5, c, lines[i]);
    }
    KeepsAllFromEach(c, lines, PullStep(md5));
    ReconcileNoop(c, lines, PullStep(md5));
  }

  /** The `_id` values of the lines are pairwise distinct, as in a commit's output. */
  predicate DistinctIds(lines: seq<Record>) {
    forall i, j :: 0 <= i < j < |lines| ==> Get(lines[i], IdKey) != Get(lines[j], IdKey)
  }

  /** After pulling sealed lines with distinct ids, every line is settled in the resulting cell. */
  lemma {:induction false} PullSettles(md5: string -> string, c: Cell, lines: seq<Record>)
    requires forall i :: 0 <= i < |lines| ==> Sealed(md5, lines[i])
    requires DistinctIds(lines)
    ensures var r := Pull(md5, c, lines);
      && r.error.None?
      && forall i :: 0 <= i < |lines| ==> Settled(md5, r.cell, lines[i])
    decreases |lines|
  {
    if |lines| > 0 {
      var d := lines[0];
      var id := Get(d, IdKey).value;
      PullUnfold(md5, c, lines);
      assert Sealed(md5, d);
      var (next, v) := PullLine(md5, c, d).value;
      assert Settled(md5, next, d);
      var tail := lines[1..];
      assert forall i :: 0 <= i < |tail| ==> tail[i] == lines[i + 1];
      PullSettles(md5, next, tail);
      PullLeavesOthers(md5, next, tail, id);
      var r := Pull(md5, c, lines);
      assert r.cell == Pull(md5, next, tail).cell;
      forall i | 0 <= i < |lines|
        ensures Settled(md5, r.cell, lines[i])
      {
        if i > 0 {
          assert lines[i] == tail[i - 1];
        }
      }
    }
  }

  /**
   * Re-pulling a snapshot of sealed lines with distinct ids reports every
   * line unchanged and leaves the cell as the first pull left it.
   */
  lemma PullIdempotent(md5: string -> string, c: Cell, lines: seq<Record>)
    requires forall i :: 0 <= i < |lines| ==> Sealed(md5, lines[i])
    requires DistinctIds(lines)
    ensures var first := Pull(md5, c, lines);
      Pull(md5, first.cell, lines) == PullOutcome(first.cell, PullCounts(|lines|, 0, 0), None)
  {
    PullSettles(md5, c, lines);
    PullSettledIsNoop(md5, Pull(md5, c, lines).cell, lines);
  }

  /** Pulling a cell's own commit back into it changes nothing and reports every document unchanged. */
  lemma CommitPullRoundTrip(md5: string -> string, c: Cell, cursor: seq<Value>)
    requires Keyed(c) && Enumerates(c, cursor)
    ensures Pull(md5, c, Commit(md5, c, cursor)) == PullOutcome(c, PullCounts(|c|, 0, 0), None)
  {
    var lines := Commit(md5, c, cursor);
    forall i | 0 <= i < |lines|
      ensures Settled(md5, c, lines[i])
    {
      assert Sealed(md5, lines[i]);
    }
    PullSettledIsNoop(md5, c, lines);
  }

  /** A settled line stays settled when some other document is overwritten. */
  lemma SettledElsewhere(md5: string -> string, c: Cell, d: Record, k: Value, x: Record)
    requires Settled(md5, c, d) && Get(d, IdKey) != Some(k)
    ensures Settled(md5, c[k := x], d)
  {
    var id := Get(d, IdKey).value;
    assert id != k;
    assert c[k := x][id] == c[id];
  }

  /**
   * A snapshot in which every line but one is settled and that one line's
   * `md5` disagrees with the stored document: pull replaces exactly that
   * document by the line and reports everything else unchanged.
   */
  lemma {:induction false} PullOneStale(md5: string -> string, c: Cell, lines: seq<Record>, j: nat, k: Value)
    requires j < |lines| && Complete(lines[j]) && Get(lines[j], IdKey) == Some(k)
    requires k in c && !Settled(md5, c, lines[j])
    requires forall i :: 0 <= i < |lines| && i != j ==> Settled(md5, c, lines[i]) && Get(lines[i], IdKey) != Some(k)
    ensures Pull(md5, c, lines) == PullOutcome(c[k := lines[j]], PullCounts(|lines| - 1, 1, 0), None)
    decreases |lines|
  {
    var tail := lines[1..];
    PullUnfold(md5, c, lines);
    if j == 0 {
      var c' := c[k := lines[0]];
      assert PullLine(md5, c, lines[0]) == Success((c', Replaced));
      forall i | 0 <= i < |tail|
        ensures Settled(md5, c', tail[i])
      {
        assert tail[i] == lines[i + 1];
        SettledElsewhere(md5, c, tail[i], k, lines[0]);
      }
      PullSettledIsNoop(md5, c', tail);
      assert Plus(Tally(Replaced), PullCounts(|tail|, 0, 0)) == PullCounts(|lines| - 1, 1, 0);
    } else {
      assert Settled(md5, c, lines[0]);
      assert PullLine(md5, c, lines[0]) == Success((c, Unchanged));
      assert tail[j - 1] == lines[j];
      forall i | 0 <= i < |tail| && i != j - 1
        ensures Settled(md5, c, tail[i]) && Get(tail[i], IdKey) != Some(k)
      {
        assert tail[i] == lines[i + 1];
      }
      PullOneStale(md5, c, tail, j - 1, k);
      assert Plus(Tally(Unchanged), PullCounts(|tail| - 1, 1, 0)) == PullCounts(|lines| - 1, 1, 0);
    }
  }

  /** A sealed line is settled exactly when the stored document under its `_id` strips to a record with the same digest. */
  lemma SealedSettled(md5: string -> string, c: Cell, d: Record, id: Value)
    requires Sealed(md5, d) && Get(d, IdKey) == Some(id) && id in c
    ensures Settled(md5, c, d) <==> HashDict(md5, Strip(c[id])) == HashDict(md5, Strip(d))
  {
  }

  /**
   * Commit a cell, change one stored document so that its digest changes,
   * then pull the snapshot back: exactly one document is replaced, all
   * others are reported unchanged, and the changed document is back to its
   * committed content.
   */
  lemma CommitMutatePull(md5: string -> string, c: Cell, cursor: seq<Value>, k: Value, m: Record)
    requires Keyed(c) && Enumerates(c, cursor)
    requires k in c && Get(m, IdKey) == Some(k)
    requires HashDict(md5, Strip(m)) != HashDict(md5, Strip(c[k]))
    ensures
      var r := Pull(md5, c[k := m], Commit(md5, c, cursor));
      && r.error.None?
      && r.counts == PullCounts(|c| - 1, 1, 0)
      && r.cell.Keys == c.Keys
      && (forall id :: id in c && id != k ==> r.cell[id] == c[id])
      && Strip(r.cell[k]) == Strip(c[k]) && Sealed(md5, r.cell[k])
  {
    var lines := Commit(md5, c, cursor);
    var c' := c[k := m];
    assert k in cursor;
    var j :| 0 <= j < |cursor| && cursor[j] == k;
    assert Sealed(md5, lines[j]) && Get(lines[j], IdKey) == Some(k) && Strip(lines[j]) == Strip(c[k]);
    SealedSettled(md5, c', lines[j], k);
    SnapshotSettledElsewhere(md5, c, cursor, lines, j, m);
    PullOneStale(md5, c', lines, j, k);
    OverwriteTwice(c, k, m, lines[j]);
  }

  /**
   * Every line of a snapshot of `c` except the one for `cursor[j]` stays
   * settled when the document under `cursor[j]` is overwritten.
   */
  lemma SnapshotSettledElsewhere(md5: string -> string, c: Cell, cursor: seq<Value>, lines: seq<Record>, j: nat, m: Record)
    requires |lines| == |cursor| && j < |cursor|
    requires forall a, b :: 0 <= a < b < |cursor| ==> cursor[a] != cursor[b]
    requires forall i :: 0 <= i < |lines| ==>
      cursor[i] in c && Sealed(md5, lines[i]) && Get(lines[i], IdKey) == Some(cursor[i]) && Strip(lines[i]) == Strip(c[cursor[i]])
    ensures forall i :: 0 <= i < |lines| && i != j ==>
      Settled(md5, c[cursor[j] := m], lines[i]) && Get(lines[i], IdKey) != Some(cursor[j])
  {
    var k := cursor[j];
    forall i | 0 <= i < |lines| && i != j
      ensures Settled(md5, c[k := m], lines[i]) && Get(lines[i], IdKey) != Some(k)
    {
      var id := cursor[i];
      assert id != k by {
        if i < j { assert cursor[i] != cursor[j]; } else { assert cursor[j] != cursor[i]; }
      }
      assert c[k := m][id] == c[id];
      SealedSettled(md5, c[k := m], lines[i], id);
    }
  }

  /** Overwriting a stored document twice keeps the cell's keys and every other document. */
  lemma OverwriteTwice(c: Cell, k: Value, a: Record, b: Record)
    requires k in c
    ensures c[k := a][k := b].Keys == c.Keys
    ensures forall id :: id in c && id != k ==> c[k := a][k := b][id] == c[id]
  {
    assert c[k := a][k := b] == c[k := b];
  }
}

=== FILE: store.dfy ===
/** The document store behind a cell, reduced to what the cell commands use. */
module Store {
  import opened Wrappers
  import opened Json

  /** A cell: its documents keyed by their `_id` value, as the collection's `_id` index keeps them. */
  type Cell = map<Value, Record>

  /** Every stored document carries its own key in `_id`, as MongoDB guarantees. */
  predicate Keyed(c: Cell) {
    forall id :: id in c ==> Get(c[id], IdKey) == Some(id)
  }
}

=== FILE: wrappers.dfy ===
/** Option and Result datatypes shared by the rest of the model. */
module Wrappers {

  /** A value that may be absent: a dictionary lookup or a store query that found nothing. */
  datatype Option<+T> = None | Some(value: T)

  /** The outcome of one step that can raise: either its value or the error it raised. */
  datatype Result<+R, +E> = Success(value: R) | Failure(error: E)
}
